=== FILE: README.md ===
# Scriberr: automatic summaries, default settings, recorder and dashboard

This project models part of Scriberr, a self-hosted transcription service.

- **Automatic summary generation.** When a transcription job completes, the service looks up
  the job, the active LLM configuration and the first summary template. It picks an Ollama
  or OpenAI client and cuts an over-long transcript. It puts the transcript into the
  template's `{{transcript}}` placeholder and sends one chat completion. It stores the
  answer as a summary and caches it on the job.
- **Default settings.** At start-up the server seeds one default transcription profile, one
  LLM configuration and one summary template, each only into an empty table. The first
  database error stops the run.
- **The audio recorder.** This covers its record, pause, stop, save and discard state
  machine, which group of buttons is on screen, and the `MM:SS` timer text. An upload is
  started by Save and settles later, as a separate event. Other buttons stay usable
  meanwhile.
- **The dashboard's file intake.** This covers the window-wide drag counter and the drop
  overlay, how a drop or a file selection is routed to the upload, and the upload-progress
  panel's counts.

The modules:

- `Wrappers`: the `Option` and `Result` types.
- `Text`: the standard-library string helpers the source relies on. These are Go's
  `strings.Replace(…, 1)` and JavaScript's `toString`/`padStart`.
- `Models`: the records involved.
- `LlmSettings`, `SoapPrompt`, `SummarySettings` and `SettingsLoader`: the seeding.
  `SoapPrompt` holds the default prompt text, written in short pieces so that the verifier
  can check it.
- `AutoSummary`: the summary pipeline.
- `DefaultPipeline`: what the pipeline does on the seeded defaults.
- `AudioRecorder` and `Dashboard`: the two front-end components.

Repositories, the LLM client, the database and the browser are not modelled as code.

- A lookup enters as its result.
- A call with an effect (chat completion, saving a summary, creating a row) enters as a
  function from what is sent to what comes back.
- The process environment is a function from names to values.
- The file-processing helpers of the dashboard are a record of functions.

## Model

| member | source | states |
|---|---|---|
| Text.Index | internal/service/auto_summary.go:91 | the placeholder search finds the leftmost occurrence, and reports none exactly when there is none |
| Text.ReplaceFirst | internal/service/auto_summary.go:91 | only the first placeholder is replaced; a template without one is sent unchanged |
| Text.ReplaceTrailingOnly | internal/service/auto_summary.go:91 | when the placeholder's first character does not occur before it, the placeholder occurs there and nowhere else, the text ends with it, and replacing it appends the replacement |
| Text.NatToDecimal | web/frontend/src/components/audio/AudioRecorder.tsx:144 | `toString` of a whole number gives at least one digit with no leading zero; one digit below 10, at most two below 100 |
| Text.DecimalRoundTrip | web/frontend/src/components/audio/AudioRecorder.tsx:144 | the digits printed for a number read back as that number |
| Text.PadStart | web/frontend/src/components/audio/AudioRecorder.tsx:144 | `padStart(2, '0')` reaches the width and only prepends pad characters to the unchanged text |
| Text.LeadingZerosValue | web/frontend/src/components/audio/AudioRecorder.tsx:144 | prepended zeros keep the text all digits and do not change its value |
| LlmSettings.PtrString | internal/settings/llm.go:38 | the pointer is never nil and holds the given string |
| LlmSettings.GetEnvPtr | internal/settings/llm.go:41-46 | nil exactly when the variable is empty or unset, otherwise its value |
| LlmSettings.DefaultLLMConfig | internal/settings/llm.go:10-35 | provider openai, active, no custom OpenAI endpoint, Ollama at localhost:11434, key from OPENAI_API_KEY and nil when it is empty |
| SoapPrompt.PreambleHasNoBrace | internal/settings/summary.go:16-61 | no character of the SOAP prompt before its placeholder is `{` |
| SummarySettings.DefaultSummaryTemplates | internal/settings/summary.go:7-65 | exactly one template, "Catatan SOAP Psikologi" for gpt-4o-mini, with a description |
| SummarySettings.DefaultPromptIsSoapTemplate | internal/settings/summary.go:16-62 | the default template's prompt is the SOAP preamble followed by the transcript placeholder |
| SettingsLoader.DefaultTranscriptionProfile | internal/settings/transcription.go:7-11 | the default profile is named "Default Profile" and is marked as the default |
| SettingsLoader.InsertAll | internal/settings/loader.go:83-89 | templates are created in order; the first failing create stops the loop and returns its error; the rows created are exactly those before it |
| SettingsLoader.SeedIfEmpty | internal/settings/loader.go:33-51 | a count error is returned with the table untouched; a non-empty table is left alone; only an empty table receives the defaults |
| SettingsLoader.SeedTranscriptionProfile | internal/settings/loader.go:33-51 | touches only the profiles table, keeps its rows, and leaves it non-empty when no error is returned; when the table already has rows the store is unchanged, and rows are added only to an empty table and only as a prefix of the default profile; a count error is returned with the store untouched, a populated table gives no error, and an empty one returns the error of the default profile's create |
| SettingsLoader.SeedLLMConfig | internal/settings/loader.go:54-72 | touches only the LLM-config table, keeps its rows, and leaves it non-empty when no error is returned; when the table already has rows the store is unchanged, and rows are added only to an empty table and only as a prefix of the default configuration; a count error is returned with the store untouched, a populated table gives no error, and an empty one returns the error of the default configuration's create |
| SettingsLoader.SeedSummaryTemplates | internal/settings/loader.go:75-95 | touches only the templates table, keeps its rows, and leaves it non-empty when no error is returned; when the table already has rows the store is unchanged, and rows are added only to an empty table and only as a prefix of the default templates; a count error is returned with the store untouched, a populated table gives no error, and an empty one returns the error of the first failing template create |
| SettingsLoader.SeedDefaults | internal/settings/loader.go:13-30 | steps run in order and the first error is returned with the later steps skipped; existing rows are never removed; on success every table has a row |
| SettingsLoader.SeedPopulatedStoreIsNoOp | internal/settings/loader.go:10-13 | seeding a store whose tables all have rows changes nothing, whatever the database answers |
| SettingsLoader.SeedTwiceInsertsNothing | internal/settings/loader.go:10-13 | after a seed that returned no error, seeding again, against any database, inserts nothing |
| SettingsLoader.SeedEmptyStoreInstallsDefaults | internal/settings/loader.go:13-95 | on an empty store with no database error, one run installs exactly the three defaults |
| AutoSummary.SelectService | internal/service/auto_summary.go:66-81 | "ollama" uses the configured non-empty base URL or the localhost fallback; any other provider uses OpenAI with the configured endpoint and the key, or "" when it is unset |
| AutoSummary.Truncate | internal/service/auto_summary.go:84-90 | a transcript of at most 100000 characters is kept whole; a longer one keeps its first 100000 and ends with the truncation marker |
| AutoSummary.TruncateIdempotent | internal/service/auto_summary.go:84-90 | cutting an already cut transcript changes nothing |
| AutoSummary.TruncateKeepsPrefix | internal/service/auto_summary.go:84-90 | the original up to the limit is always kept as the prefix |
| AutoSummary.BuildPrompt | internal/service/auto_summary.go:83-91 | the first placeholder of the template is replaced by the cut transcript; a template without a placeholder is sent as it is |
| AutoSummary.PromptAfterBraceFreeText | internal/service/auto_summary.go:91 | a template made of text without `{` followed by the placeholder holds the placeholder only at its end, and its prompt is that text followed by the cut transcript |
| AutoSummary.ReachesFirstTemplateModel | internal/service/auto_summary.go:35-128 | a job with a transcript, an active configuration and a template leads to a request to the selected client for the first template's model; a non-empty answer is cached with no error |
| AutoSummary.MakeRequest | internal/service/auto_summary.go:93-95 | one user message with the prompt, the template's model, temperature 0, the selected client |
| AutoSummary.HasTranscript | internal/service/auto_summary.go:46 | the job is summarised only when its transcript is set and not empty |
| AutoSummary.IsUsableConfig | internal/service/auto_summary.go:52-53 | the active-config lookup is usable only when it succeeded, found a configuration, and that configuration is switched on |
| AutoSummary.HasTemplate | internal/service/auto_summary.go:59-60 | the template lookup is usable only when it succeeded with at least one template |
| AutoSummary.HasAnswer | internal/service/auto_summary.go:101 | the reply is usable only when the call succeeded with a response holding at least one choice |
| AutoSummary.GenerateSummaryForJob | internal/service/auto_summary.go:35-128 | a job lookup error is returned; missing transcript, config or template skips silently; the LLM is called exactly when all are present; an LLM error is returned; a non-empty answer is cached on the job and stored when the save succeeds |
| AutoSummary.SaveOutcomeOnlyAffectsStoredRow | internal/service/auto_summary.go:117-127 | a failed save changes neither the returned error, the request nor the job cache |
| AutoSummary.StoredSummaryMatchesCache | internal/service/auto_summary.go:106-124 | when saves succeed, a summary is stored exactly when one is cached on the job |
| DefaultPipeline.DefaultConfigUsesOpenAI | internal/settings/llm.go:10-35 | the default configuration passes the active check and selects OpenAI's public endpoint with exactly OPENAI_API_KEY's value as key |
| DefaultPipeline.DefaultOllamaURLIsFallback | internal/settings/llm.go:21 | the default Ollama URL equals the pipeline's fallback |
| DefaultPipeline.DefaultPromptHasOnePlaceholder | internal/settings/summary.go:16-62 | the default prompt holds the placeholder exactly once, as its last characters |
| DefaultPipeline.DefaultPromptEndsWithPlaceholder | internal/settings/summary.go:62 | the default prompt ends with the placeholder the pipeline replaces |
| DefaultPipeline.DefaultPromptIsPreamblePlusTranscript | internal/settings/summary.go:16-62 | with the default template, the prompt sent is the SOAP preamble followed by the cut transcript |
| DefaultPipeline.DefaultsReachOpenAI | internal/service/auto_summary.go:35-128 | on the seeded defaults, a job with a transcript leads to one gpt-4o-mini request to OpenAI; a non-empty answer is cached with no error |
| AudioRecorder.VisibleControls | web/frontend/src/components/audio/AudioRecorder.tsx:174-207 | Start and Cancel show when neither recording nor holding a recording, Pause and Stop while recording, Save and Discard while a recording is held |
| AudioRecorder.ExactlyOneControlGroup | web/frontend/src/components/audio/AudioRecorder.tsx:174-207 | exactly one group of buttons is shown precisely when the recorder does not record while holding a recording |
| AudioRecorder.PluginCreated | web/frontend/src/components/audio/AudioRecorder.tsx:55-75 | registering the plugin only makes it available |
| AudioRecorder.StartRecording | web/frontend/src/components/audio/AudioRecorder.tsx:94-109 | with a plugin that starts, recording begins unpaused at time 0 without a recording and every other field, the closed flag included, stays as it was; otherwise nothing changes |
| AudioRecorder.TogglePause | web/frontend/src/components/audio/AudioRecorder.tsx:113-122 | with a plugin, only the paused flag flips; without one nothing changes |
| AudioRecorder.TogglePauseInvolution | web/frontend/src/components/audio/AudioRecorder.tsx:113-122 | pausing twice restores the state |
| AudioRecorder.RecordEnd | web/frontend/src/components/audio/AudioRecorder.tsx:65-69 | the finished recording is kept and recording and pause stop; nothing else changes |
| AudioRecorder.RecordProgress | web/frontend/src/components/audio/AudioRecorder.tsx:71-73 | only the timer changes, to the reported time |
| AudioRecorder.Discard | web/frontend/src/components/audio/AudioRecorder.tsx:197 | the recording is dropped and the timer reset; nothing else changes |
| AudioRecorder.SaveRecording | web/frontend/src/components/audio/AudioRecorder.tsx:124-130 | with Save disabled during an upload or no recording nothing happens; otherwise the recording is submitted with the uploading flag raised and nothing else changes |
| AudioRecorder.SettleUpload | web/frontend/src/components/audio/AudioRecorder.tsx:128-138 | when the pending upload settles the flag is lowered however it ends, and the recorder asks to be closed only on success; nothing else changes |
| AudioRecorder.SaveThenSettle | web/frontend/src/components/audio/AudioRecorder.tsx:124-139 | saving and settling with nothing in between leaves the recorder as it was, closed exactly when the upload succeeded |
| AudioRecorder.UploadCanCloseANewRecording | web/frontend/src/components/audio/AudioRecorder.tsx:128-132 | discarding and restarting while an upload is pending is possible, and that upload's success then closes the recorder during the new recording |
| AudioRecorder.Step | web/frontend/src/components/audio/AudioRecorder.tsx:65-139 | every transition keeps the recorder from recording while holding a recording |
| AudioRecorder.ReplayKeepsOneControlGroup | web/frontend/src/components/audio/AudioRecorder.tsx:174-207 | from the initial state, after any events, exactly one group of buttons is on screen |
| AudioRecorder.ClockFields | web/frontend/src/components/audio/AudioRecorder.tsx:142-143 | whole minutes and seconds below 60 whose time lies within the second of `ms` |
| AudioRecorder.ClockFieldsUnique | web/frontend/src/components/audio/AudioRecorder.tsx:142-143 | those fields are the only ones with that property |
| AudioRecorder.TwoDigits | web/frontend/src/components/audio/AudioRecorder.tsx:144 | a field is all digits and at least two long, exactly two below 100, and starts with a padding zero only below 10 |
| AudioRecorder.ClockText | web/frontend/src/components/audio/AudioRecorder.tsx:144 | digit fields joined by a colon three from the end; five characters for fewer than 100 minutes; a leading zero only for fewer than 10 minutes |
| AudioRecorder.FormatTime | web/frontend/src/components/audio/AudioRecorder.tsx:141-145 | the timer is digits, a colon and two digits, and exactly `MM:SS` below 100 minutes; it starts with a zero only below 10 minutes, so longer times carry no padding |
| AudioRecorder.ParseClockText | web/frontend/src/components/audio/AudioRecorder.tsx:144 | the clock text reads back as the minutes and seconds it shows |
| AudioRecorder.ParseFormatTime | web/frontend/src/components/audio/AudioRecorder.tsx:141-145 | the timer text reads back as the whole minutes and seconds of the elapsed time |
| AudioRecorder.PaddedValue | web/frontend/src/components/audio/AudioRecorder.tsx:144 | zero-padding a field does not change the number it shows |
| Dashboard.DraggedFiles | web/frontend/src/features/transcription/components/Dashboard.tsx:87-90 | exactly the files of file-kind items that yield one, none more than there are items; empty exactly when no item does |
| Dashboard.DraggedFilesConcat | web/frontend/src/features/transcription/components/Dashboard.tsx:87-90 | filtering keeps order and repetitions: the files of a concatenation are the files of its parts, in turn |
| Dashboard.DragEnter | web/frontend/src/features/transcription/components/Dashboard.tsx:77-97 | the counter rises; with items the overlay shows the counter; the preview changes only when files are dragged |
| Dashboard.DragLeave | web/frontend/src/features/transcription/components/Dashboard.tsx:99-109 | the counter falls; reaching zero hides the overlay and clears the preview |
| Dashboard.CounterTracksNet | web/frontend/src/features/transcription/components/Dashboard.tsx:77-109 | the counter equals its start value plus enters minus leaves |
| Dashboard.BalancedReturnsToNotDragging | web/frontend/src/features/transcription/components/Dashboard.tsx:77-109 | matched enters and leaves leave no drag in progress |
| Dashboard.RouteDrop | web/frontend/src/features/transcription/components/Dashboard.tsx:124-150 | no files or invalid files upload nothing; a valid multi-track group opens the dialog exactly when it can be prepared; a video group is converted with the video flag; any other is uploaded as grouped |
| Dashboard.Drop | web/frontend/src/features/transcription/components/Dashboard.tsx:116-152 | a drop always resets the drag state, then routes the files |
| Dashboard.HandleFileChange | web/frontend/src/features/transcription/components/Dashboard.tsx:58-73 | a non-empty selection is uploaded as typed non-video files; the input is cleared unless that upload rejects, which leaves the handler before the reset |
| Dashboard.DropThenBalancedIsIdle | web/frontend/src/features/transcription/components/Dashboard.tsx:77-123 | a drop ends any drag, and balanced drag events after it leave the overlay hidden |
| Dashboard.SelectionSkipsValidation | web/frontend/src/features/transcription/components/Dashboard.tsx:58-68 | files a drop refuses as unsupported are still uploaded when chosen through the input |
| Dashboard.CountStatus | web/frontend/src/features/transcription/components/Dashboard.tsx:243 | one entry counts one exactly when it has the status; zero exactly when no entry has it |
| Dashboard.CountStatusConcat | web/frontend/src/features/transcription/components/Dashboard.tsx:243 | the count of a joined list is the sum of the counts, so with one-entry lists the count is the length of the filtered list |
| Dashboard.FinishedCount | web/frontend/src/features/transcription/components/Dashboard.tsx:260 | the bar's numerator: one entry counts one exactly when it is no longer uploading, and never more than all entries are counted |
| Dashboard.ShowProgressPanel | web/frontend/src/features/transcription/components/Dashboard.tsx:239 | the progress panel is shown exactly when the list of uploads is not empty |
| Dashboard.StatusPartition | web/frontend/src/features/transcription/components/Dashboard.tsx:243-260 | finished entries are the succeeded and the failed ones, and with the uploading ones they are all entries |
| Dashboard.HeadingCounts | web/frontend/src/features/transcription/components/Dashboard.tsx:243 | the heading shows the number of succeeded uploads, never more than the finished ones, out of all uploads |
| Dashboard.RatioBounds | web/frontend/src/features/transcription/components/Dashboard.tsx:260 | a ratio of a part to a positive whole lies in [0, 1] and is 1 exactly when the part is the whole |
| Dashboard.ProgressPercent | web/frontend/src/features/transcription/components/Dashboard.tsx:259-261 | the bar lies in [0, 100]; it is 100 exactly when nothing is uploading and 0 exactly when nothing has finished |
| Dashboard.OverlayError | web/frontend/src/features/transcription/components/Dashboard.tsx:313-317 | an error shows only for a previewed group without valid files: the multi-track validator's error for a multi-track group, "No supported files found" otherwise |
| Dashboard.OverlayAgreesWithDrop | web/frontend/src/features/transcription/components/Dashboard.tsx:124-150 | a group the overlay reports an error for is not uploaded when dropped; for groups that are not multi-track the converse holds; a valid multi-track group that cannot be prepared is neither uploaded nor reported |

## Left out

- Logging is left out: every `logger` call and the dashboard's `console.error`.
- Contexts, timeouts and the storage and LLM back-ends are left out. The repositories,
  `ChatCompletion`, `SaveSummary` and GORM's `Count`/`Create` enter as results or as
  functions of their argument.
- The job cache is modelled as the value written. The error of `UpdateSummary` is
  discarded by the source, so it is not modelled.
- AutoSummary.Truncate: Go's `len` and slicing count bytes. Here a `char` stands for one
  byte, so cutting inside a multi-byte UTF-8 character is not modelled.
- SettingsLoader.DefaultTranscriptionProfile: the WhisperX parameters of the default
  profile are not modelled. Only its name, description and default flag are.
- SettingsLoader.SeedDefaults: whether a create fails is a function of the row. A database
  whose answer also depends on earlier writes is not modelled.
- Database-assigned ids and timestamps are left out. A seeded template carries the empty
  id.
- The rest of the recorder is left out:
  - The WaveSurfer widget, its waveform options and the microphone permission request are
    left out.
  - The 100 ms delayed initialisation and its cleanup are left out.
  - The `alert` messages are left out.
  - The upload file name (`Quick Recording` followed by `toLocaleTimeString()`) is left out.
  - `onCancel` after a successful upload is the `closed` flag. Closing is recorded but
    does not stop further events: the parent's unmounting of the recorder is not modelled.
  - The cancel button only calls `onCancel`, and it is not modelled.
- Stopping a recording: `stopRecording` only asks the plugin to stop. It is the
  `StopPressed` event, which changes nothing until the plugin's `record-end` arrives.
- AudioRecorder.FormatTime: the elapsed time is a whole non-negative number of
  milliseconds. A fractional or negative time, and JavaScript's exponent notation for
  very large numbers, are not modelled.
- Dashboard.ProgressPercent: the bar is computed with exact reals, not JavaScript
  floating point.
- The rest of the dashboard is left out:
  - The `dragover` handler only cancels the browser's default and is left out.
  - The recording-mode toggle, the record and upload buttons, `handleTranscribe`,
    `dismissProgress`, the file table and the styling are left out.
  - Registering and removing the listeners is left out.
- The `fileProcessor` helpers are not part of this model:
  - `groupFiles`, `hasValidFiles`, `prepareMultiTrackFiles`, `validateMultiTrackFiles`,
    `convertToFileWithType` and `getFileDescription`.
  - The first four enter as functions. Conversion is represented by the `Typed`
    selection.
- Dashboard.Drop: a rejection of `handleFileSelect` after a drop is not modelled. Nothing
  follows it in the drop handler.
- Dashboard.OverlayError: the source passes the group's files followed by the project
  file, which may be undefined, as one array. Here they are two arguments, with a
  missing project file as `None`.

=== FILE: audio_recorder.dfy ===
/** The in-browser audio recorder: its control state, the transitions driven by the
    buttons and by the recording plugin's events, which group of controls is shown, and
    the `MM:SS` timer text.

    The recording plugin and the upload context are outside the model; whether their
    calls succeed enters each transition as a parameter. */
module AudioRecorder {
  import opened Wrappers
  import Text

  /** A recorded audio blob, identified abstractly. */
  datatype Blob = Blob(id: nat)

  /** The component state. `pluginReady` says whether the recording plugin has been
      created; `recordingTime` is in milliseconds; `closed` says whether the recorder has
      asked its parent to close it (called `onCancel`). */
  datatype Recorder = Recorder(
    pluginReady: bool,
    isRecording: bool,
    isPaused: bool,
    recordingTime: nat,
    recordedBlob: Option<Blob>,
    isUploading: bool,
    closed: bool)

  const Initial := Recorder(false, false, false, 0, None, false, false)

  /** The three groups of controls: record and cancel, pause/resume and stop, save and
      discard. */
  datatype Controls = StartOrCancel | PauseOrStop | SaveOrDiscard

  /** The groups whose render condition holds in `s`. */
  function VisibleControls(s: Recorder): set<Controls> {
    (if !s.isRecording && s.recordedBlob.None? then {StartOrCancel} else {}) +
    (if s.isRecording then {PauseOrStop} else {}) +
    (if s.recordedBlob.Some? then {SaveOrDiscard} else {})
  }

  /** The recorder never holds a finished recording while it is recording. */
  predicate Consistent(s: Recorder) {
    !(s.isRecording && s.recordedBlob.Some?)
  }

  /** Exactly one group of controls is visible precisely in consistent states; each group
      is shown in the state it belongs to. */
  lemma ExactlyOneControlGroup(s: Recorder)
    ensures |VisibleControls(s)| == 1 <==> Consistent(s)
    ensures Consistent(s) ==>
              VisibleControls(s) ==
                (if s.isRecording then {PauseOrStop}
                 else if s.recordedBlob.Some? then {SaveOrDiscard}
                 else {StartOrCancel})
  {
    if !Consistent(s) {
      assert VisibleControls(s) == {PauseOrStop, SaveOrDiscard};
    }
  }

  /** The plugin has been created and registered. */
  function PluginCreated(s: Recorder): (r: Recorder)
    ensures r.pluginReady
    ensures r.(pluginReady := s.pluginReady) == s
  {
    s.(pluginReady := true)
  }

  /** Start button; `started` says whether the plugin managed to start recording. Without
      a plugin, or when starting fails, nothing changes. */
  function StartRecording(s: Recorder, started: bool): (r: Recorder)
    ensures s.pluginReady && started ==>
              r.isRecording && !r.isPaused && r.recordingTime == 0 && r.recordedBlob.None? &&
              r.pluginReady == s.pluginReady && r.isUploading == s.isUploading
    ensures s.pluginReady && started ==>
              r.(isRecording := s.isRecording, isPaused := s.isPaused,
                 recordingTime := s.recordingTime, recordedBlob := s.recordedBlob) == s
    ensures !s.pluginReady || !started ==> r == s
  {
    if !s.pluginReady || !started then s
    else s.(isRecording := true, isPaused := false, recordingTime := 0, recordedBlob := None)
  }

  /** Pause/resume button: flips the paused flag (after asking the plugin to pause or
      resume); without a plugin nothing changes. */
  function TogglePause(s: Recorder): (r: Recorder)
    ensures s.pluginReady ==> r.isPaused == !s.isPaused && r.(isPaused := s.isPaused) == s
    ensures !s.pluginReady ==> r == s
  {
    if !s.pluginReady then s else s.(isPaused := !s.isPaused)
  }

  /** Pausing twice returns to the state before. */
  lemma TogglePauseInvolution(s: Recorder)
    ensures TogglePause(TogglePause(s)) == s
  {
  }

  /** The plugin's `record-end` event, carrying the finished recording. */
  function RecordEnd(s: Recorder, blob: Blob): (r: Recorder)
    ensures r.recordedBlob == Some(blob) && !r.isRecording && !r.isPaused
    ensures r.(recordedBlob := s.recordedBlob, isRecording := s.isRecording,
               isPaused := s.isPaused) == s
  {
    s.(recordedBlob := Some(blob), isRecording := false, isPaused := false)
  }

  /** The plugin's `record-progress` event, carrying the elapsed time. */
  function RecordProgress(s: Recorder, time: nat): (r: Recorder)
    ensures r.recordingTime == time && r.(recordingTime := s.recordingTime) == s
  {
    s.(recordingTime := time)
  }

  /** Discard button: forgets the recording and resets the timer. */
  function Discard(s: Recorder): (r: Recorder)
    ensures r.recordedBlob.None? && r.recordingTime == 0
    ensures r.(recordedBlob := s.recordedBlob, recordingTime := s.recordingTime) == s
  {
    s.(recordedBlob := None, recordingTime := 0)
  }

  /** Save button. It is disabled while an upload is pending; otherwise it hands the
      recording (if any) to the upload and raises the uploading flag. Returns the state and
      the recording submitted. */
  function SaveRecording(s: Recorder): (r: (Recorder, Option<Blob>))
    ensures s.isUploading || s.recordedBlob.None? ==> r == (s, None)
    ensures !s.isUploading && s.recordedBlob.Some? ==>
              r.1 == s.recordedBlob && r.0.isUploading && r.0.(isUploading := false) == s
  {
    if s.isUploading || s.recordedBlob.None? then (s, None)
    else (s.(isUploading := true), s.recordedBlob)
  }

  /** The pending upload settles; `uploaded` says whether it succeeded. The uploading flag
      is lowered however it ends, and on success the recorder asks to be closed, whatever it
      is doing by then. Without a pending upload nothing happens. */
  function SettleUpload(s: Recorder, uploaded: bool): (r: Recorder)
    ensures !s.isUploading ==> r == s
    ensures s.isUploading ==> !r.isUploading && (r.closed <==> s.closed || uploaded)
    ensures r.(isUploading := s.isUploading, closed := s.closed) == s
  {
    if !s.isUploading then s else s.(isUploading := false, closed := s.closed || uploaded)
  }

  /** Saving and then settling, with nothing in between, leaves the recorder as it was,
      closed exactly when the upload succeeded (or it was closed already). */
  lemma SaveThenSettle(s: Recorder, uploaded: bool)
    requires !s.isUploading && s.recordedBlob.Some?
    ensures SaveRecording(s).1 == s.recordedBlob
    ensures SettleUpload(SaveRecording(s).0, uploaded) == s.(closed := s.closed || uploaded)
  {
  }

  /** Everything that can happen to the recorder. `StopPressed` only asks the plugin to
      stop; the state changes when the plugin reports `record-end`. */
  datatype Event =
    | PluginReady
    | StartPressed(started: bool)
    | PausePressed
    | StopPressed
    | RecordEnded(blob: Blob)
    | RecordProgressed(time: nat)
    | DiscardPressed
    | SavePressed
    | UploadFinished(uploaded: bool)

  function Step(s: Recorder, e: Event): (r: Recorder)
    ensures Consistent(s) ==> Consistent(r)
  {
    match e
    case PluginReady => PluginCreated(s)
    case StartPressed(started) => StartRecording(s, started)
    case PausePressed => TogglePause(s)
    case StopPressed => s
    case RecordEnded(blob) => RecordEnd(s, blob)
    case RecordProgressed(time) => RecordProgress(s, time)
    case DiscardPressed => Discard(s)
    case SavePressed => SaveRecording(s).0
    case UploadFinished(uploaded) => SettleUpload(s, uploaded)
  }

  /** The state after the events `es`, in order. */
  function Replay(s: Recorder, es: seq<Event>): Recorder
    decreases |es|
  {
    if |es| == 0 then s else Step(Replay(s, es[..|es| - 1]), es[|es| - 1])
  }

  /** Whatever happens, a recorder that starts out idle keeps exactly one group of
      controls on screen. */
  lemma {:induction false} ReplayKeepsOneControlGroup(es: seq<Event>)
    ensures Consistent(Replay(Initial, es))
    ensures |VisibleControls(Replay(Initial, es))| == 1
    decreases |es|
  {
    if |es| > 0 {
      ReplayKeepsOneControlGroup(es[..|es| - 1]);
    }
    ExactlyOneControlGroup(Replay(Initial, es));
  }

  /** The discard button stays enabled while an upload is pending, so a recording can be
      discarded and a new one started before the first upload settles; its success then
      closes the recorder in the middle of the new recording. */
  lemma UploadCanCloseANewRecording(b: Blob)
    ensures var es := [PluginReady, StartPressed(true), RecordEnded(b), SavePressed,
                       DiscardPressed, StartPressed(true), UploadFinished(true)];
            var r := Replay(Initial, es);
            r.isRecording && r.recordedBlob.None? && r.closed
  {
    var es := [PluginReady, StartPressed(true), RecordEnded(b), SavePressed,
               DiscardPressed, StartPressed(true), UploadFinished(true)];
    var recorded := Initial.(pluginReady := true, recordedBlob := Some(b));
    var uploading := recorded.(isUploading := true);
    var restarted := uploading.(recordedBlob := None, isRecording := true);
    assert es[..1][..0] == [] && es[..2][..1] == es[..1] && es[..3][..2] == es[..2];
    assert es[..4][..3] == es[..3] && es[..5][..4] == es[..4] && es[..6][..5] == es[..5];
    assert es[..7][..6] == es[..6] && es[..7] == es;
    assert Replay(Initial, es[..1]) == Initial.(pluginReady := true);
    assert Replay(Initial, es[..2]) == Initial.(pluginReady := true, isRecording := true);
    assert Replay(Initial, es[..3]) == recorded;
    assert Replay(Initial, es[..5]) == uploading.(recordedBlob := None);
    assert Replay(Initial, es[..4]) == uploading;
    assert Replay(Initial, es[..6]) == restarted;
  }

  // ---------------------------------------------------------------------------
  // Timer text
  // ---------------------------------------------------------------------------

  /** Whole minutes and remaining whole seconds of `ms` milliseconds. */
  function ClockFields(ms: nat): (f: (nat, nat))
    ensures f.1 < 60
    ensures f.0 * 60000 + f.1 * 1000 <= ms < f.0 * 60000 + f.1 * 1000 + 1000
  {
    (ms / 60000, (ms % 60000) / 1000)
  }

  /** The two fields are what the timer shows: minutes, then seconds. */
  lemma ClockFieldsUnique(ms: nat, mins: nat, secs: nat)
    requires secs < 60
    requires mins * 60000 + secs * 1000 <= ms < mins * 60000 + secs * 1000 + 1000
    ensures ClockFields(ms) == (mins, secs)
  {
  }

  /** The digits of `n`, zero-padded to at least two. */
  function TwoDigits(n: nat): (d: string)
    ensures Text.AllDigits(d)
    ensures |d| >= 2 && (n < 100 <==> |d| == 2)
    ensures d[0] == '0' ==> n < 10
  {
    Text.PadStart(Text.NatToDecimal(n), 2, '0')
  }

  /** Minutes and seconds as text, each zero-padded to at least two digits and joined
      by ':'. */
  function ClockText(mins: nat, secs: nat): (r: string)
    requires secs < 100
    ensures mins < 100 ==> |r| == 5 && r[2] == ':'
    ensures |r| >= 5 && r[|r| - 3] == ':'
    ensures r[0] == '0' ==> mins < 10
    ensures Text.AllDigits(r[..|r| - 3]) && Text.AllDigits(r[|r| - 2..])
  {
    var pm := TwoDigits(mins);
    var ps := TwoDigits(secs);
    JoinedFields(pm, ps);
    pm + ":" + ps
  }

  /** Where the two fields sit in `pm + ":" + ps` when the second is two digits long. */
  lemma JoinedFields(pm: string, ps: string)
    requires Text.AllDigits(pm) && Text.AllDigits(ps) && |pm| >= 2 && |ps| == 2
    ensures var r := pm + ":" + ps;
            |r| == |pm| + 3 && r[|pm|] == ':' && r[..|r| - 3] == pm && r[|r| - 2..] == ps
    ensures var r := pm + ":" + ps;
            Text.AllDigits(r[..|r| - 3]) && Text.AllDigits(r[|r| - 2..])
  {
    var r := pm + ":" + ps;
    assert r[..|r| - 3] == pm;
    assert r[|r| - 2..] == ps;
  }

  /** The timer text shown for `ms` milliseconds; under 100 minutes it is `MM:SS`. */
  function FormatTime(ms: nat): (r: string)
    ensures ms < 6000000 ==> |r| == 5 && r[2] == ':'
    ensures |r| >= 5 && r[|r| - 3] == ':'
    ensures r[0] == '0' ==> ms < 600000
    ensures Text.AllDigits(r[..|r| - 3]) && Text.AllDigits(r[|r| - 2..])
  {
    var mins := ms / 60000;
    var secs := (ms % 60000) / 1000;
    ClockText(mins, secs)
  }

  /** Reads a timer text back into minutes and seconds. */
  function ParseTime(t: string): (f: (nat, nat))
    requires |t| >= 3 && Text.AllDigits(t[..|t| - 3]) && Text.AllDigits(t[|t| - 2..])
  {
    (Text.DecimalValue(t[..|t| - 3]), Text.DecimalValue(t[|t| - 2..]))
  }

  /** Two digit fields joined by ':' read back as their values. */
  lemma ParseJoined(pm: string, ps: string)
    requires Text.AllDigits(pm) && Text.AllDigits(ps) && |pm| >= 2 && |ps| == 2
    ensures ParseTime(pm + ":" + ps) == (Text.DecimalValue(pm), Text.DecimalValue(ps))
  {
    JoinedFields(pm, ps);
  }

  /** The clock text reads back as the minutes and seconds it was made from. */
  lemma ParseClockText(mins: nat, secs: nat)
    requires secs < 100
    ensures ParseTime(ClockText(mins, secs)) == (mins, secs)
  {
    ParseJoined(TwoDigits(mins), TwoDigits(secs));
    PaddedValue(mins);
    PaddedValue(secs);
  }

  /** The timer text reads back as the whole minutes and seconds of `ms`. */
  lemma ParseFormatTime(ms: nat)
    ensures ParseTime(FormatTime(ms)) == ClockFields(ms)
  {
    var mins, secs := ms / 60000, (ms % 60000) / 1000;
    assert ClockFields(ms) == (mins, secs) && secs < 60;
    assert FormatTime(ms) == ClockText(mins, secs);
    assert ParseTime(ClockText(mins, secs)) == (mins, secs) by {
      ParseClockText(mins, secs);
    }
  }

  /** Zero-padding the digits of `n` to width 2 still reads as `n`. */
  lemma PaddedValue(n: nat)
    ensures Text.DecimalValue(TwoDigits(n)) == n
  {
    var d := Text.NatToDecimal(n);
    Text.DecimalRoundTrip(n);
    if |d| < 2 {
      assert Text.PadStart(d, 2, '0') == Text.Repeat('0', 2 - |d|) + d;
      Text.LeadingZerosValue(2 - |d|, d);
    }
  }
}

=== FILE: auto_summary.dfy ===
/** Automatic summary generation after a transcription completes.

    The repositories and the LLM client are outside the model: the job, LLM-config and
    template lookups enter as their results, and the chat-completion call and the summary
    save enter as functions from what is sent to what comes back. A `Run` records what
    the pipeline sent and stored and the error it returned. */
module AutoSummary {
  import opened Wrappers
  import opened Models
  import Text

  /** Ollama endpoint used when the configuration names none. */
  const OllamaFallbackURL := "http://localhost:11434"

  /** Transcripts longer than this many bytes are cut before prompting. */
  const MaxTranscriptChars := 100000

  /** Appended to a transcript that was cut. */
  const TruncationSuffix := "\n\n[... transcript truncated due to length ...]"

  /** Where a template's prompt receives the transcript. */
  const TranscriptPlaceholder := "{{transcript}}"

  /** The LLM client chosen for the configuration. */
  datatype Service =
    | Ollama(baseURL: string)
    | OpenAI(apiKey: string, endpoint: Option<string>)

  datatype ChatMessage = ChatMessage(role: string, content: string)

  /** One non-streaming chat-completion call. */
  datatype ChatRequest = ChatRequest(
    service: Service,
    model: string,
    messages: seq<ChatMessage>,
    temperature: real)

  datatype Choice = Choice(message: ChatMessage)

  datatype ChatResponse = ChatResponse(choices: seq<Choice>)

  /** The observable outcome of one run: the error returned, the chat request sent, the
      summary row stored by `SaveSummary`, and the summary cached on the job record. */
  datatype Run = Run(
    result: Option<Error>,
    request: Option<ChatRequest>,
    stored: Option<Summary>,
    cachedOnJob: Option<string>)

  /** Nothing was sent or stored and no error is returned. */
  const Skipped := Run(None, None, None, None)

  predicate HasTranscript(job: TranscriptionJob) {
    job.transcript.Some? && job.transcript.value != ""
  }

  /** The active-config lookup produced a configuration that is switched on. */
  predicate IsUsableConfig(lookup: Result<Option<LLMConfig>, Error>) {
    lookup.Success? && lookup.value.Some? && lookup.value.value.isActive
  }

  predicate HasTemplate(lookup: Result<seq<SummaryTemplate>, Error>) {
    lookup.Success? && |lookup.value| > 0
  }

  /** Picks the LLM client: provider "ollama" talks to the configured base URL when it is
      set and non-empty and to the local fallback otherwise; every other provider goes
      to OpenAI with the configured endpoint and the key ("" when unset). */
  function SelectService(cfg: LLMConfig): (svc: Service)
    ensures svc.Ollama? <==> cfg.provider == "ollama"
    ensures svc.Ollama? ==> svc.baseURL != ""
    ensures svc.Ollama? && cfg.baseURL.Some? && cfg.baseURL.value != "" ==>
              svc.baseURL == cfg.baseURL.value
    ensures svc.Ollama? && (cfg.baseURL.None? || cfg.baseURL.value == "") ==>
              svc.baseURL == OllamaFallbackURL
    ensures svc.OpenAI? ==> svc.endpoint == cfg.openAIBaseURL
    ensures svc.OpenAI? && cfg.apiKey.Some? ==> svc.apiKey == cfg.apiKey.value
    ensures svc.OpenAI? && cfg.apiKey.None? ==> svc.apiKey == ""
  {
    if cfg.provider == "ollama" then
      var baseURL :=
        if cfg.baseURL.Some? && cfg.baseURL.value != "" then cfg.baseURL.value
        else OllamaFallbackURL;
      Ollama(baseURL)
    else
      var apiKey := if cfg.apiKey.Some? then cfg.apiKey.value else "";
      OpenAI(apiKey, cfg.openAIBaseURL)
  }

  /** Cuts a transcript longer than the limit to its first `MaxTranscriptChars` bytes and
      marks the cut; a shorter one is kept whole. */
  function Truncate(t: string): (r: string)
    ensures |t| <= MaxTranscriptChars ==> r == t
    ensures |t| > MaxTranscriptChars ==>
              Text.StartsWith(r, t[..MaxTranscriptChars]) &&
              Text.EndsWith(r, TruncationSuffix) &&
              |r| == MaxTranscriptChars + |TruncationSuffix|
    ensures |r| <= MaxTranscriptChars + |TruncationSuffix|
  {
    if |t| > MaxTranscriptChars then t[..MaxTranscriptChars] + TruncationSuffix else t
  }

  /** Cutting is idempotent: a cut transcript is not cut again. */
  lemma TruncateIdempotent(t: string)
    ensures Truncate(Truncate(t)) == Truncate(t)
  {
    if |t| > MaxTranscriptChars {
      var r := Truncate(t);
      assert r[..MaxTranscriptChars] == t[..MaxTranscriptChars];
    }
  }

  /** The kept part of the transcript is a prefix of the original, as long as the
      original up to the limit. */
  lemma TruncateKeepsPrefix(t: string)
    ensures var n := if |t| < MaxTranscriptChars then |t| else MaxTranscriptChars;
            |Truncate(t)| >= n && Truncate(t)[..n] == t[..n]
  {
  }

  /** The prompt sent to the LLM: the template with its first placeholder replaced by the
      (possibly cut) transcript. */
  function BuildPrompt(template: string, transcript: string): (p: string)
    ensures (forall j :: !Text.OccursAt(template, TranscriptPlaceholder, j)) ==> p == template
    ensures forall i :: Text.IsFirstOccurrence(template, TranscriptPlaceholder, i) ==>
              p == template[..i] + Truncate(transcript) +
                   template[i + |TranscriptPlaceholder|..]
  {
    Text.ReplaceFirst(template, TranscriptPlaceholder, Truncate(transcript))
  }

  /** A template made of text without `{` followed by the placeholder holds the
      placeholder only at its end, and its prompt is that text followed by the (possibly cut)
      transcript. */
  lemma PromptAfterBraceFreeText(template: string, pre: string, transcript: string)
    requires '{' !in pre && template == pre + TranscriptPlaceholder
    ensures Text.OccursOnlyAt(template, TranscriptPlaceholder, |pre|)
    ensures Text.EndsWith(template, TranscriptPlaceholder)
    ensures BuildPrompt(template, transcript) == pre + Truncate(transcript)
  {
    Text.ReplaceTrailingOnly(pre, TranscriptPlaceholder, Truncate(transcript));
  }

  /** The chat request for a job: one user message carrying the prompt, sent to the
      template's model at temperature 0. */
  function MakeRequest(cfg: LLMConfig, template: SummaryTemplate, transcript: string)
    : (req: ChatRequest)
    ensures req.service == SelectService(cfg) && req.model == template.model
    ensures req.temperature == 0.0
    ensures |req.messages| == 1 && req.messages[0].role == "user"
    ensures req.messages[0].content == BuildPrompt(template.prompt, transcript)
  {
    ChatRequest(SelectService(cfg), template.model,
                [ChatMessage("user", BuildPrompt(template.prompt, transcript))], 0.0)
  }

  /** The pipeline gets as far as calling the LLM. */
  predicate ReachesLLM(findJob: Result<TranscriptionJob, Error>,
                       getActive: Result<Option<LLMConfig>, Error>,
                       listTemplates: Result<seq<SummaryTemplate>, Error>)
  {
    findJob.Success? && HasTranscript(findJob.value) &&
    IsUsableConfig(getActive) && HasTemplate(listTemplates)
  }

  /** The LLM answered with at least one choice. */
  predicate HasAnswer(reply: Result<Option<ChatResponse>, Error>) {
    reply.Success? && reply.value.Some? && |reply.value.value.choices| > 0
  }

  /** Generates and stores a summary for job `jobID`.
      - A failed job lookup returns its error; nothing else happens.
      - No transcript, no usable LLM config or no template: skipped, returns no error.
      - Otherwise one request is sent with the first template; an LLM error is returned,
        an empty answer is dropped without error.
      - A non-empty answer becomes a summary that is offered to `SaveSummary` and, whether
        or not that save succeeds, cached on the job; no error is returned. */
  function GenerateSummaryForJob(
    jobID: string,
    findJob: Result<TranscriptionJob, Error>,
    getActive: Result<Option<LLMConfig>, Error>,
    listTemplates: Result<seq<SummaryTemplate>, Error>,
    chat: ChatRequest -> Result<Option<ChatResponse>, Error>,
    saveSummary: Summary -> Option<Error>): (r: Run)
    ensures findJob.Failure? ==> r == Run(Some(findJob.error), None, None, None)
    ensures findJob.Success? && !ReachesLLM(findJob, getActive, listTemplates) ==> r == Skipped
    ensures r.request.Some? <==> ReachesLLM(findJob, getActive, listTemplates)
    ensures r.request.Some? ==>
              r.request.value == MakeRequest(getActive.value.value, listTemplates.value[0],
                                             findJob.value.transcript.value)
    ensures r.cachedOnJob.Some? <==> r.request.Some? && HasAnswer(chat(r.request.value))
    ensures r.cachedOnJob.Some? ==>
              r.cachedOnJob.value == chat(r.request.value).value.value.choices[0].message.content
    ensures r.stored.Some? ==> r.cachedOnJob.Some? && saveSummary(r.stored.value).None?
    ensures r.stored.Some? ==>
              r.stored.value == Summary(jobID, Some(listTemplates.value[0].id),
                                        listTemplates.value[0].model, r.cachedOnJob.value)
    ensures r.cachedOnJob.Some? &&
            saveSummary(Summary(jobID, Some(listTemplates.value[0].id),
                                listTemplates.value[0].model, r.cachedOnJob.value)).None? ==>
              r.stored.Some?
    ensures r.result.Some? <==>
              findJob.Failure? || (r.request.Some? && chat(r.request.value).Failure?)
    ensures r.request.Some? && chat(r.request.value).Failure? ==>
              r.result == Some(chat(r.request.value).error)
  {
    match findJob
    case Failure(e) => Run(Some(e), None, None, None)
    case Success(job) =>
      if !HasTranscript(job) then Skipped
      else if !IsUsableConfig(getActive) then Skipped
      else if !HasTemplate(listTemplates) then Skipped
      else
        var template := listTemplates.value[0];
        var req := MakeRequest(getActive.value.value, template, job.transcript.value);
        match chat(req)
        case Failure(e) => Run(Some(e), Some(req), None, None)
        case Success(resp) =>
          if resp.None? || |resp.value.choices| == 0 then Run(None, Some(req), None, None)
          else
            var content := resp.value.choices[0].message.content;
            var summary := Summary(jobID, Some(template.id), template.model, content);
            var stored := if saveSummary(summary).None? then Some(summary) else None;
            Run(None, Some(req), stored, Some(content))
  }

  /** If the LLM answered the request the run sent, the run returned no error and cached
      the answer on the job. */
  predicate CachesAnswer(r: Run, chat: ChatRequest -> Result<Option<ChatResponse>, Error>) {
    r.request.Some? && HasAnswer(chat(r.request.value)) ==>
      r.result.None? && r.cachedOnJob.Some?
  }

  /** A job with a transcript, an active configuration and at least one template reaches
      the LLM: the request goes to the configured service for the first template's model,
      and a non-empty answer is cached on the job with no error returned. */
  lemma ReachesFirstTemplateModel(
    jobID: string,
    job: TranscriptionJob,
    cfg: LLMConfig,
    templates: seq<SummaryTemplate>,
    chat: ChatRequest -> Result<Option<ChatResponse>, Error>,
    saveSummary: Summary -> Option<Error>)
    requires HasTranscript(job) && cfg.isActive && |templates| > 0
    ensures var r := GenerateSummaryForJob(jobID, Success(job), Success(Some(cfg)),
                                           Success(templates), chat, saveSummary);
            r.request.Some? &&
            r.request.value.model == templates[0].model &&
            r.request.value.service == SelectService(cfg) &&
            CachesAnswer(r, chat)
  {
  }

  /** Whether `SaveSummary` succeeds or fails changes nothing but the stored row: the
      returned error, the request sent and the summary cached on the job are the same. */
  lemma SaveOutcomeOnlyAffectsStoredRow(
    jobID: string,
    findJob: Result<TranscriptionJob, Error>,
    getActive: Result<Option<LLMConfig>, Error>,
    listTemplates: Result<seq<SummaryTemplate>, Error>,
    chat: ChatRequest -> Result<Option<ChatResponse>, Error>,
    save1: Summary -> Option<Error>,
    save2: Summary -> Option<Error>)
    ensures var r1 := GenerateSummaryForJob(jobID, findJob, getActive, listTemplates, chat, save1);
            var r2 := GenerateSummaryForJob(jobID, findJob, getActive, listTemplates, chat, save2);
            r1.result == r2.result && r1.request == r2.request &&
            r1.cachedOnJob == r2.cachedOnJob
  {
  }

  /** A successful save stores exactly the summary that is cached on the job. */
  lemma StoredSummaryMatchesCache(
    jobID: string,
    findJob: Result<TranscriptionJob, Error>,
    getActive: Result<Option<LLMConfig>, Error>,
    listTemplates: Result<seq<SummaryTemplate>, Error>,
    chat: ChatRequest -> Result<Option<ChatResponse>, Error>,
    saveSummary: Summary -> Option<Error>)
    requires forall s :: saveSummary(s).None?
    ensures var r := GenerateSummaryForJob(jobID, findJob, getActive, listTemplates, chat,
                                           saveSummary);
            r.stored.Some? <==> r.cachedOnJob.Some?
  {
  }
}

=== FILE: dashboard.dfy ===
/** The dashboard's file intake: the window-wide drag counter, where a drop or a file
    selection is routed, the upload-progress counters, and the overlay's error text.

    The file-processing helpers (grouping, validation, multi-track preparation) are not
    part of this model; they enter as the fields of a `FileProcessor`. */
module Dashboard {
  import opened Wrappers

  /** A file handed over by the browser, identified abstractly. */
  datatype File = File(name: string, size: nat)

  /** The kind of a group of files; kinds other than multi-track and video carry the tag
      the grouping helper gave them. */
  datatype GroupKind = MultiTrack | Video | OtherKind(tag: string)

  /** Files grouped for upload; a multi-track group may carry its project file. */
  datatype FileGroup = FileGroup(kind: GroupKind, files: seq<File>, aupFile: Option<File>)

  /** The file-processing helpers the dashboard calls. `prepareMultiTrackFiles` is None
      when it returns null; `validateMultiTrackFiles` receives the group's files followed
      by the (possibly missing) project file and returns its error text, if any. */
  datatype FileProcessor = FileProcessor(
    groupFiles: seq<File> -> FileGroup,
    hasValidFiles: FileGroup -> bool,
    prepareMultiTrackFiles: FileGroup -> Option<seq<File>>,
    validateMultiTrackFiles: (seq<File>, Option<File>) -> Option<string>)

  // ---------------------------------------------------------------------------
  // Drag state
  // ---------------------------------------------------------------------------

  /** `counter` counts enters minus leaves since the last drop; the other three fields are
      what the overlay shows. */
  datatype DragState = DragState(
    counter: int,
    isDragging: bool,
    dragCount: int,
    draggedGroup: Option<FileGroup>)

  const NotDragging := DragState(0, false, 0, None)

  /** One entry of a drag's item list: whether its kind is "file", and the file the
      browser gives for it (None when `getAsFile` returns null). */
  datatype DragItem = DragItem(isFile: bool, file: Option<File>)

  /** The files of the file-kind items that yield a file, in order. */
  function DraggedFiles(items: seq<DragItem>): (fs: seq<File>)
    ensures |fs| <= |items|
    ensures forall f :: f in fs <==> exists k :: 0 <= k < |items| && items[k].isFile &&
                                                 items[k].file == Some(f)
    ensures |fs| == 0 <==> forall k :: 0 <= k < |items| ==> !items[k].isFile || items[k].file.None?
    ensures |items| == 1 ==>
              fs == if items[0].isFile && items[0].file.Some? then [items[0].file.value] else []
    decreases |items|
  {
    if |items| == 0 then []
    else
      var rest := DraggedFiles(items[1..]);
      assert forall k :: 1 <= k < |items| ==> items[1..][k - 1] == items[k];
      if items[0].isFile && items[0].file.Some? then [items[0].file.value] + rest else rest
  }

  /** Filtering keeps order and repetitions: the files of a concatenation are the files of
      its parts, one after the other. With the single-item case of `DraggedFiles` this fixes
      the result completely. */
  lemma {:induction false} DraggedFilesConcat(a: seq<DragItem>, b: seq<DragItem>)
    ensures DraggedFiles(a + b) == DraggedFiles(a) + DraggedFiles(b)
    decreases |a|
  {
    if |a| == 0 {
      assert a + b == b;
    } else {
      assert (a + b)[1..] == a[1..] + b;
      DraggedFilesConcat(a[1..], b);
    }
  }

  /** A drag enters the window. The counter goes up; if the drag carries items the overlay
      is shown with the counter, and if some of them are files their group is previewed. */
  function DragEnter(s: DragState, items: seq<DragItem>, fp: FileProcessor): (r: DragState)
    ensures r.counter == s.counter + 1
    ensures |items| > 0 ==> r.isDragging && r.dragCount == r.counter
    ensures |items| == 0 ==> r == s.(counter := s.counter + 1)
    ensures |DraggedFiles(items)| > 0 ==> r.draggedGroup == Some(fp.groupFiles(DraggedFiles(items)))
    ensures |DraggedFiles(items)| == 0 ==> r.draggedGroup == s.draggedGroup
  {
    var s1 := s.(counter := s.counter + 1);
    if |items| == 0 then s1
    else
      var files := DraggedFiles(items);
      var s2 := s1.(isDragging := true, dragCount := s1.counter);
      if |files| > 0 then s2.(draggedGroup := Some(fp.groupFiles(files))) else s2
  }

  /** A drag leaves the window. The counter goes down, and when it reaches zero the
      overlay is cleared. */
  function DragLeave(s: DragState): (r: DragState)
    ensures r.counter == s.counter - 1
    ensures r.counter == 0 ==> r == NotDragging
    ensures r.counter != 0 ==> r == s.(counter := s.counter - 1)
  {
    var c := s.counter - 1;
    if c == 0 then NotDragging else s.(counter := c)
  }

  datatype DragEvent = Enter(items: seq<DragItem>) | Leave

  /** Net enters minus leaves of a sequence of drag events. */
  function Net(es: seq<DragEvent>): int
    decreases |es|
  {
    if |es| == 0 then 0
    else Net(es[..|es| - 1]) + (if es[|es| - 1].Enter? then 1 else -1)
  }

  /** Every enter is matched by a later leave and no leave comes before its enter. */
  predicate Balanced(es: seq<DragEvent>) {
    Net(es) == 0 && forall k :: 0 <= k <= |es| ==> Net(es[..k]) >= 0
  }

  /** The drag state after the events `es`, in order. */
  function DragReplay(s: DragState, es: seq<DragEvent>, fp: FileProcessor): DragState
    decreases |es|
  {
    if |es| == 0 then s
    else
      var before := DragReplay(s, es[..|es| - 1], fp);
      match es[|es| - 1]
      case Enter(items) => DragEnter(before, items, fp)
      case Leave => DragLeave(before)
  }

  /** The counter always equals its start value plus the net count of the events. */
  lemma {:induction false} CounterTracksNet(s: DragState, es: seq<DragEvent>, fp: FileProcessor)
    ensures DragReplay(s, es, fp).counter == s.counter + Net(es)
    decreases |es|
  {
    if |es| > 0 {
      CounterTracksNet(s, es[..|es| - 1], fp);
    }
  }

  /** A balanced sequence of enters and leaves, starting with no drag in progress, ends
      with no drag in progress: counter zero, overlay hidden, no previewed group. */
  lemma BalancedReturnsToNotDragging(es: seq<DragEvent>, fp: FileProcessor)
    requires Balanced(es)
    ensures DragReplay(NotDragging, es, fp) == NotDragging
  {
    if |es| > 0 {
      var n := |es| - 1;
      assert es[..|es|] == es;
      assert Net(es) == Net(es[..n]) + (if es[n].Enter? then 1 else -1);
      assert Net(es[..n]) >= 0;
      CounterTracksNet(NotDragging, es[..n], fp);
    }
  }

  // ---------------------------------------------------------------------------
  // Routing a drop or a selection
  // ---------------------------------------------------------------------------

  /** How files reach the upload: as given, or converted to typed files with the video
      flag set or not. */
  datatype Selection = AsGiven(files: seq<File>) | Typed(files: seq<File>, isVideo: bool)

  datatype DropAction = NoUpload | OpenMultiTrackDialog | SelectFiles(selection: Selection)

  /** The dropped files (None when the drop carries no file list) are grouped, checked and
      routed: an invalid group uploads nothing, a multi-track group opens the multi-track
      dialog when it can be prepared, a video group is converted with the video flag, and
      any other group is handed over as it is. */
  function RouteDrop(files: Option<seq<File>>, fp: FileProcessor): (a: DropAction)
    ensures files.None? || |files.value| == 0 ==> a == NoUpload
    ensures a.SelectFiles? <==>
              files.Some? && |files.value| > 0 &&
              fp.hasValidFiles(fp.groupFiles(files.value)) &&
              !fp.groupFiles(files.value).kind.MultiTrack?
    ensures a.OpenMultiTrackDialog? <==>
              files.Some? && |files.value| > 0 &&
              fp.hasValidFiles(fp.groupFiles(files.value)) &&
              fp.groupFiles(files.value).kind.MultiTrack? &&
              fp.prepareMultiTrackFiles(fp.groupFiles(files.value)).Some?
    ensures a.SelectFiles? ==>
              a.selection.files == fp.groupFiles(files.value).files &&
              (a.selection.Typed? <==> fp.groupFiles(files.value).kind.Video?) &&
              (a.selection.Typed? ==> a.selection.isVideo)
  {
    if files.None? || |files.value| == 0 then NoUpload
    else
      var group := fp.groupFiles(files.value);
      if !fp.hasValidFiles(group) then NoUpload
      else match group.kind
        case MultiTrack =>
          if fp.prepareMultiTrackFiles(group).Some? then OpenMultiTrackDialog else NoUpload
        case Video => SelectFiles(Typed(group.files, true))
        case OtherKind(_) => SelectFiles(AsGiven(group.files))
  }

  /** A drop: the drag state is reset whatever it was, and the files are routed. */
  function Drop(s: DragState, files: Option<seq<File>>, fp: FileProcessor)
    : (r: (DragState, DropAction))
    ensures r.0 == NotDragging
    ensures r.1 == RouteDrop(files, fp)
  {
    (NotDragging, RouteDrop(files, fp))
  }

  /** What a change of the file input does: the upload it starts (if any), the value the
      input is left with, and whether the upload's rejection escapes the handler. */
  datatype FileChange = FileChange(selection: Option<Selection>, inputValue: string,
                                   rejected: bool)

  /** The file input changed; `inputValue` is its value and `selectSucceeds` says whether
      the upload accepts the selection. A non-empty selection is converted to typed files
      without the video flag and uploaded, whether or not the files are valid. The input is
      then cleared so that the same file can be chosen again, unless the upload rejected:
      the rejection leaves the handler before the reset and the input keeps its value. */
  function HandleFileChange(files: Option<seq<File>>, inputValue: string,
                            selectSucceeds: bool): (r: FileChange)
    ensures r.selection.Some? <==> files.Some? && |files.value| > 0
    ensures r.selection.Some? ==> r.selection.value == Typed(files.value, false)
    ensures r.rejected <==> r.selection.Some? && !selectSucceeds
    ensures r.rejected ==> r.inputValue == inputValue
    ensures !r.rejected ==> r.inputValue == ""
  {
    if files.Some? && |files.value| > 0 then
      var selection := Typed(files.value, false);
      if selectSucceeds then FileChange(Some(selection), "", false)
      else FileChange(Some(selection), inputValue, true)
    else FileChange(None, "", false)
  }

  /** A drop ends the drag whatever happened before it, and any balanced series of drag
      events after it leaves the overlay hidden. */
  lemma DropThenBalancedIsIdle(s: DragState, files: Option<seq<File>>, fp: FileProcessor,
                               es: seq<DragEvent>)
    requires Balanced(es)
    ensures DragReplay(Drop(s, files, fp).0, es, fp) == NotDragging
  {
    BalancedReturnsToNotDragging(es, fp);
  }

  /** The file input does not validate: files a drop would refuse as unsupported are still
      uploaded when chosen through the input. */
  lemma SelectionSkipsValidation(fs: seq<File>, fp: FileProcessor, inputValue: string)
    requires |fs| > 0 && !fp.hasValidFiles(fp.groupFiles(fs))
    ensures RouteDrop(Some(fs), fp) == NoUpload
    ensures HandleFileChange(Some(fs), inputValue, true).selection == Some(Typed(fs, false))
  {
  }

  // ---------------------------------------------------------------------------
  // Upload progress
  // ---------------------------------------------------------------------------

  /** An upload's status: 'uploading', 'success' or 'error'. */
  datatype UploadStatus = Uploading | Succeeded | Failed

  datatype UploadProgress = UploadProgress(fileName: string, status: UploadStatus,
                                           error: Option<string>)

  /** How many entries have status `st`. */
  function CountStatus(l: seq<UploadProgress>, st: UploadStatus): (n: nat)
    ensures n <= |l|
    ensures n == 0 <==> forall k :: 0 <= k < |l| ==> l[k].status != st
    ensures |l| == 1 ==> n == (if l[0].status == st then 1 else 0)
    decreases |l|
  {
    if |l| == 0 then 0
    else CountStatus(l[..|l| - 1], st) + (if l[|l| - 1].status == st then 1 else 0)
  }

  /** Counting splits over concatenation; with the one-entry clause this makes `CountStatus`
      the length of the filtered list. */
  lemma {:induction false} CountStatusConcat(a: seq<UploadProgress>, b: seq<UploadProgress>,
                                             st: UploadStatus)
    ensures CountStatus(a + b, st) == CountStatus(a, st) + CountStatus(b, st)
    decreases |b|
  {
    if |b| == 0 {
      assert a + b == a;
    } else {
      assert (a + b)[..|a + b| - 1] == a + b[..|b| - 1];
      CountStatusConcat(a, b[..|b| - 1], st);
    }
  }

  /** How many entries are no longer uploading. */
  function FinishedCount(l: seq<UploadProgress>): (n: nat)
    ensures n <= |l|
    ensures |l| == 1 ==> n == (if l[0].status != Uploading then 1 else 0)
    decreases |l|
  {
    if |l| == 0 then 0
    else FinishedCount(l[..|l| - 1]) + (if l[|l| - 1].status != Uploading then 1 else 0)
  }

  /** Every entry is uploading, succeeded or failed, and the finished ones are exactly the
      succeeded and the failed ones. */
  lemma {:induction false} StatusPartition(l: seq<UploadProgress>)
    ensures FinishedCount(l) == CountStatus(l, Succeeded) + CountStatus(l, Failed)
    ensures CountStatus(l, Uploading) + FinishedCount(l) == |l|
    decreases |l|
  {
    if |l| > 0 {
      StatusPartition(l[..|l| - 1]);
    }
  }

  /** The progress panel is shown only for a non-empty list. */
  predicate ShowProgressPanel(l: seq<UploadProgress>) {
    |l| > 0
  }

  /** The panel heading's counts: succeeded uploads out of all of them. */
  function HeadingCounts(l: seq<UploadProgress>): (c: (nat, nat))
    ensures c.1 == |l| && c.0 <= c.1
    ensures c.0 == CountStatus(l, Succeeded)
    ensures c.0 <= FinishedCount(l)
  {
    StatusPartition(l);
    (CountStatus(l, Succeeded), |l|)
  }

  /** For a non-negative ratio of at most one: it lies in [0, 1] and is one exactly when
      the two sides are equal. */
  lemma RatioBounds(a: real, b: real)
    requires 0.0 < b && 0.0 <= a <= b
    ensures 0.0 <= a / b <= 1.0
    ensures a / b == 1.0 <==> a == b
  {
    var q := a / b;
    assert q * b == a;
  }

  /** The overall progress bar's value in percent: finished uploads over all uploads. It
      reaches 100 exactly when no upload is still in flight, and is 0 exactly when none has
      finished. */
  function ProgressPercent(l: seq<UploadProgress>): (p: real)
    requires ShowProgressPanel(l)
    ensures 0.0 <= p <= 100.0
    ensures p == 100.0 <==> CountStatus(l, Uploading) == 0
    ensures p == 0.0 <==> FinishedCount(l) == 0
  {
    StatusPartition(l);
    RatioBounds(FinishedCount(l) as real, |l| as real);
    (FinishedCount(l) as real) / (|l| as real) * 100.0
  }

  // ---------------------------------------------------------------------------
  // Overlay
  // ---------------------------------------------------------------------------

  /** The overlay's error text: only for a previewed group without valid files; for a
      multi-track group it is the multi-track validator's error (which may be absent),
      otherwise a fixed message. */
  function OverlayError(group: Option<FileGroup>, fp: FileProcessor): (msg: Option<string>)
    ensures msg.Some? ==> group.Some? && !fp.hasValidFiles(group.value)
    ensures group.Some? && !fp.hasValidFiles(group.value) && !group.value.kind.MultiTrack? ==>
              msg == Some("No supported files found")
    ensures group.Some? && !fp.hasValidFiles(group.value) && group.value.kind.MultiTrack? ==>
              msg == fp.validateMultiTrackFiles(group.value.files, group.value.aupFile)
  {
    match group
    case None => None
    case Some(g) =>
      if fp.hasValidFiles(g) then None
      else if g.kind.MultiTrack? then fp.validateMultiTrackFiles(g.files, g.aupFile)
      else Some("No supported files found")
  }

  /** The overlay previews the drop: a group it reports an error for is not uploaded when
      dropped, and for groups other than multi-track ones the converse holds too. A valid
      multi-track group that cannot be prepared is neither uploaded nor reported. */
  lemma OverlayAgreesWithDrop(fs: seq<File>, fp: FileProcessor)
    requires |fs| > 0
    ensures OverlayError(Some(fp.groupFiles(fs)), fp).Some? ==> RouteDrop(Some(fs), fp) == NoUpload
    ensures !fp.groupFiles(fs).kind.MultiTrack? ==>
              (OverlayError(Some(fp.groupFiles(fs)), fp).Some? <==>
               RouteDrop(Some(fs), fp) == NoUpload)
    ensures var g := fp.groupFiles(fs);
            g.kind.MultiTrack? && fp.hasValidFiles(g) && fp.prepareMultiTrackFiles(g).None? ==>
              RouteDrop(Some(fs), fp) == NoUpload && OverlayError(Some(g), fp).None?
  {
  }
}

=== FILE: default_pipeline.dfy ===
/** What the summary pipeline does when it runs on the seeded defaults: the default LLM
    configuration and the default SOAP-note template. */
module DefaultPipeline {
  import opened Wrappers
  import opened Models
  import Text
  import LlmSettings
  import SummarySettings
  import SoapPrompt
  import AutoSummary

  /** Under the default configuration the pipeline passes the active-config check and
      talks to OpenAI's public endpoint with exactly the value of OPENAI_API_KEY as key
      (an unset or empty variable gives the empty key). */
  lemma DefaultConfigUsesOpenAI(env: string -> string)
    ensures AutoSummary.IsUsableConfig(Success(Some(LlmSettings.DefaultLLMConfig(env))))
    ensures AutoSummary.SelectService(LlmSettings.DefaultLLMConfig(env)) ==
              AutoSummary.OpenAI(env(LlmSettings.OpenAIKeyVariable), None)
  {
  }

  /** The default Ollama URL is the pipeline's own fallback, so switching the default
      configuration to Ollama reaches the same server either way. */
  lemma DefaultOllamaURLIsFallback(env: string -> string)
    ensures LlmSettings.DefaultLLMConfig(env).baseURL == Some(AutoSummary.OllamaFallbackURL)
    ensures var cfg := LlmSettings.DefaultLLMConfig(env).(provider := "ollama");
            AutoSummary.SelectService(cfg) == AutoSummary.Ollama(AutoSummary.OllamaFallbackURL)
  {
  }

  /** The default prompt holds the pipeline's placeholder exactly once, as its last
      characters. */
  lemma DefaultPromptHasOnePlaceholder()
    ensures var prompt := SummarySettings.DefaultSummaryTemplates()[0].prompt;
            Text.OccursOnlyAt(prompt, AutoSummary.TranscriptPlaceholder, |SoapPrompt.Preamble|)
  {
    SoapPrompt.PreambleHasNoBrace();
    SummarySettings.DefaultPromptIsSoapTemplate();
    AutoSummary.PromptAfterBraceFreeText(
      SummarySettings.DefaultSummaryTemplates()[0].prompt, SoapPrompt.Preamble, "");
  }

  /** The default prompt ends with the placeholder the pipeline replaces. */
  lemma DefaultPromptEndsWithPlaceholder()
    ensures Text.EndsWith(SummarySettings.DefaultSummaryTemplates()[0].prompt,
                          AutoSummary.TranscriptPlaceholder)
  {
    SoapPrompt.PreambleHasNoBrace();
    SummarySettings.DefaultPromptIsSoapTemplate();
    AutoSummary.PromptAfterBraceFreeText(
      SummarySettings.DefaultSummaryTemplates()[0].prompt, SoapPrompt.Preamble, "");
  }

  /** With the default template, the prompt sent to the LLM is the SOAP preamble followed
      by the (possibly cut) transcript. */
  lemma DefaultPromptIsPreamblePlusTranscript(transcript: string)
    ensures AutoSummary.BuildPrompt(SummarySettings.DefaultSummaryTemplates()[0].prompt,
                                    transcript) ==
            SoapPrompt.Preamble + AutoSummary.Truncate(transcript)
  {
    SoapPrompt.PreambleHasNoBrace();
    SummarySettings.DefaultPromptIsSoapTemplate();
    AutoSummary.PromptAfterBraceFreeText(
      SummarySettings.DefaultSummaryTemplates()[0].prompt, SoapPrompt.Preamble, transcript);
  }

  /** A job with a transcript, the default configuration and the default template: the
      pipeline sends one request to OpenAI for `gpt-4o-mini`, and a non-empty answer is
      cached on the job with no error returned. */
  lemma DefaultsReachOpenAI(
    jobID: string,
    job: TranscriptionJob,
    env: string -> string,
    chat: AutoSummary.ChatRequest -> Result<Option<AutoSummary.ChatResponse>, Error>,
    saveSummary: Summary -> Option<Error>)
    requires AutoSummary.HasTranscript(job)
    ensures var r := AutoSummary.GenerateSummaryForJob(
              jobID, Success(job), Success(Some(LlmSettings.DefaultLLMConfig(env))),
              Success(SummarySettings.DefaultSummaryTemplates()), chat, saveSummary);
            r.request.Some? &&
            r.request.value.model == "gpt-4o-mini" &&
            r.request.value.service.OpenAI? &&
            AutoSummary.CachesAnswer(r, chat)
  {
    DefaultConfigUsesOpenAI(env);
    AutoSummary.ReachesFirstTemplateModel(jobID, job, LlmSettings.DefaultLLMConfig(env),
      SummarySettings.DefaultSummaryTemplates(), chat, saveSummary);
  }
}

=== FILE: llm_settings.dfy ===
/** The default LLM provider configuration seeded into an empty database. */
module LlmSettings {
  import opened Wrappers
  import opened Models

  /** Environment variable holding the OpenAI API key. */
  const OpenAIKeyVariable := "OPENAI_API_KEY"

  /** A pointer to `s`: never nil, and it dereferences to `s`. */
  function PtrString(s: string): (p: Option<string>)
    ensures p.Some? && p.value == s
  {
    Some(s)
  }

  /** Reads variable `key` from the environment `env` (an unset variable reads as "",
      as with `os.Getenv`); an empty value becomes nil. */
  function GetEnvPtr(key: string, env: string -> string): (p: Option<string>)
    ensures p.None? <==> env(key) == ""
    ensures p.Some? ==> p.value == env(key)
    ensures p.GetOr("") == env(key)
  {
    if env(key) != "" then Some(env(key)) else None
  }

  /** The default configuration: the OpenAI provider, active, talking to the public
      endpoint, with the key taken from the environment and a local Ollama URL kept for
      when the provider is switched. */
  function DefaultLLMConfig(env: string -> string): (c: LLMConfig)
    ensures c.provider == "openai" && c.isActive
    ensures c.openAIBaseURL.None?
    ensures c.baseURL == Some("http://localhost:11434")
    ensures c.apiKey.None? <==> env(OpenAIKeyVariable) == ""
    ensures c.apiKey.Some? ==> c.apiKey.value == env(OpenAIKeyVariable)
  {
    LLMConfig(
      provider := "openai",
      baseURL := PtrString("http://localhost:11434"),
      openAIBaseURL := None,
      apiKey := GetEnvPtr(OpenAIKeyVariable, env),
      isActive := true)
  }
}

=== FILE: models.dfy ===
/** The records of the Go `models` package that the modelled code reads and writes.
    Only the fields the modelled code touches are kept; a Go pointer field is an Option. */
module Models {
  import opened Wrappers

  /** An error value returned by a repository, the database or the LLM client. */
  datatype Error = Error(message: string)

  /** A transcription job; `transcript` is nil until transcription has produced one. */
  datatype TranscriptionJob = TranscriptionJob(id: string, transcript: Option<string>)

  /** Which LLM backend to talk to and how. `baseURL` is used by Ollama,
      `openAIBaseURL` and `apiKey` by OpenAI-compatible endpoints. */
  datatype LLMConfig = LLMConfig(
    provider: string,
    baseURL: Option<string>,
    openAIBaseURL: Option<string>,
    apiKey: Option<string>,
    isActive: bool)

  /** A preset summarisation prompt; `prompt` may contain the transcript placeholder. */
  datatype SummaryTemplate = SummaryTemplate(
    id: string,
    name: string,
    description: Option<string>,
    model: string,
    prompt: string)

  /** A generated summary of one transcription. */
  datatype Summary = Summary(
    transcriptionID: string,
    templateID: Option<string>,
    model: string,
    content: string)

  /** A transcription profile; its WhisperX parameters are not part of this model. */
  datatype TranscriptionProfile = TranscriptionProfile(
    name: string,
    description: Option<string>,
    isDefault: bool)
}

=== FILE: settings_loader.dfy ===
/** Seed-if-empty configuration loading. Three seeding steps run in a fixed order
    (transcription profile, LLM config, summary templates), each inserting its defaults only
    into an empty table, and the first error stops the run.

    The database is a `Store` of three tables plus a `Db` record that says which queries
    fail: counting a table, or creating a given row. */
module SettingsLoader {
  import opened Wrappers
  import opened Models
  import LlmSettings
  import SummarySettings

  datatype Table = Profiles | LLMConfigs | SummaryTemplates

  datatype Store = Store(
    profiles: seq<TranscriptionProfile>,
    llmConfigs: seq<LLMConfig>,
    templates: seq<SummaryTemplate>)

  /** How the database answers: the error (if any) of counting a table, and of creating
      each row. */
  datatype Db = Db(
    countError: Table -> Option<Error>,
    createProfile: TranscriptionProfile -> Option<Error>,
    createLLMConfig: LLMConfig -> Option<Error>,
    createTemplate: SummaryTemplate -> Option<Error>)

  /** The rows of one table after a step, and the error the step returned. */
  datatype TableSeed<T> = TableSeed(rows: seq<T>, err: Option<Error>)

  /** The store after a run, and the error the run returned. */
  datatype Seeded = Seeded(store: Store, err: Option<Error>)

  /** The default transcription profile; its WhisperX parameters are not part of this
      model. */
  function DefaultTranscriptionProfile(): (p: TranscriptionProfile)
    ensures p.isDefault && p.name == "Default Profile"
  {
    TranscriptionProfile(
      name := "Default Profile",
      description := Some("Default transcription profile - configured in code"),
      isDefault := true)
  }

  predicate IsPrefix<T(==)>(p: seq<T>, s: seq<T>) {
    |p| <= |s| && s[..|p|] == p
  }

  /** Creates `rows` one after the other, stopping at the first failing create. The rows
      created are a prefix of `rows`; all of them on success, and on failure exactly those
      before the row whose create failed, whose error is returned. */
  function InsertAll<T(==)>(rows: seq<T>, create: T -> Option<Error>): (r: TableSeed<T>)
    ensures IsPrefix(r.rows, rows)
    ensures r.err.None? <==> r.rows == rows
    ensures r.err.Some? ==> |r.rows| < |rows| && r.err == create(rows[|r.rows|])
    ensures forall k :: 0 <= k < |r.rows| ==> create(rows[k]).None?
    decreases |rows|
  {
    if |rows| == 0 then TableSeed([], None)
    else match create(rows[0])
      case Some(e) => TableSeed([], Some(e))
      case None =>
        var rest := InsertAll(rows[1..], create);
        TableSeed([rows[0]] + rest.rows, rest.err)
  }

  /** One seeding step: count the table; on a count error return it untouched with the
      error; if it already has rows leave it untouched; otherwise insert the defaults. */
  function SeedIfEmpty<T(==)>(table: seq<T>, countError: Option<Error>, defaults: seq<T>,
                          create: T -> Option<Error>): (r: TableSeed<T>)
    ensures countError.Some? ==> r == TableSeed(table, countError)
    ensures countError.None? && |table| > 0 ==> r == TableSeed(table, None)
    ensures IsPrefix(table, r.rows)
    ensures r.rows != table ==> table == [] && countError.None? && IsPrefix(r.rows, defaults)
    ensures countError.None? && table == [] ==> r == InsertAll(defaults, create)
  {
    if countError.Some? then TableSeed(table, countError)
    else if |table| == 0 then InsertAll(defaults, create)
    else TableSeed(table, None)
  }

  function SeedTranscriptionProfile(db: Db, s: Store): (r: Seeded)
    ensures r.store.llmConfigs == s.llmConfigs && r.store.templates == s.templates
    ensures IsPrefix(s.profiles, r.store.profiles)
    ensures r.err.None? ==> |r.store.profiles| > 0
    ensures |s.profiles| > 0 ==> r.store == s
    ensures db.countError(Profiles).Some? ==> r == Seeded(s, db.countError(Profiles))
    ensures db.countError(Profiles).None? && |s.profiles| > 0 ==> r.err.None?
    ensures db.countError(Profiles).None? && s.profiles == [] ==> r.err == db.createProfile(DefaultTranscriptionProfile())
    ensures r.store.profiles != s.profiles ==> s.profiles == [] && IsPrefix(r.store.profiles, [DefaultTranscriptionProfile()])
  {
    var t := SeedIfEmpty(s.profiles, db.countError(Profiles), [DefaultTranscriptionProfile()],
                         db.createProfile);
    Seeded(s.(profiles := t.rows), t.err)
  }

  function SeedLLMConfig(db: Db, env: string -> string, s: Store): (r: Seeded)
    ensures r.store.profiles == s.profiles && r.store.templates == s.templates
    ensures IsPrefix(s.llmConfigs, r.store.llmConfigs)
    ensures r.err.None? ==> |r.store.llmConfigs| > 0
    ensures |s.llmConfigs| > 0 ==> r.store == s
    ensures db.countError(LLMConfigs).Some? ==> r == Seeded(s, db.countError(LLMConfigs))
    ensures db.countError(LLMConfigs).None? && |s.llmConfigs| > 0 ==> r.err.None?
    ensures db.countError(LLMConfigs).None? && s.llmConfigs == [] ==> r.err == db.createLLMConfig(LlmSettings.DefaultLLMConfig(env))
    ensures r.store.llmConfigs != s.llmConfigs ==> s.llmConfigs == [] && IsPrefix(r.store.llmConfigs, [LlmSettings.DefaultLLMConfig(env)])
  {
    var t := SeedIfEmpty(s.llmConfigs, db.countError(LLMConfigs),
                         [LlmSettings.DefaultLLMConfig(env)], db.createLLMConfig);
    Seeded(s.(llmConfigs := t.rows), t.err)
  }

  function SeedSummaryTemplates(db: Db, s: Store): (r: Seeded)
    ensures r.store.profiles == s.profiles && r.store.llmConfigs == s.llmConfigs
    ensures IsPrefix(s.templates, r.store.templates)
    ensures r.err.None? ==> |r.store.templates| > 0
    ensures |s.templates| > 0 ==> r.store == s
    ensures db.countError(SummaryTemplates).Some? ==> r == Seeded(s, db.countError(SummaryTemplates))
    ensures db.countError(SummaryTemplates).None? && |s.templates| > 0 ==> r.err.None?
    ensures db.countError(SummaryTemplates).None? && s.templates == [] ==> r.err == InsertAll(SummarySettings.DefaultSummaryTemplates(), db.createTemplate).err
    ensures r.store.templates != s.templates ==> s.templates == [] && IsPrefix(r.store.templates, SummarySettings.DefaultSummaryTemplates())
  {
    var t := SeedIfEmpty(s.templates, db.countError(SummaryTemplates),
                         SummarySettings.DefaultSummaryTemplates(), db.createTemplate);
    Seeded(s.(templates := t.rows), t.err)
  }

  /** Runs the three steps in order and returns the first error, skipping the steps
      after it. */
  function SeedDefaults(db: Db, env: string -> string, s: Store): (r: Seeded)
    ensures var p := SeedTranscriptionProfile(db, s);
            p.err.Some? ==> r == p
    ensures var p := SeedTranscriptionProfile(db, s);
            var c := SeedLLMConfig(db, env, p.store);
            p.err.None? && c.err.Some? ==> r == c
    ensures var p := SeedTranscriptionProfile(db, s);
            var c := SeedLLMConfig(db, env, p.store);
            p.err.None? && c.err.None? ==> r == SeedSummaryTemplates(db, c.store)
    ensures IsPrefix(s.profiles, r.store.profiles)
    ensures IsPrefix(s.llmConfigs, r.store.llmConfigs)
    ensures IsPrefix(s.templates, r.store.templates)
    ensures r.err.None? ==>
      |r.store.profiles| > 0 && |r.store.llmConfigs| > 0 && |r.store.templates| > 0
  {
    var p := SeedTranscriptionProfile(db, s);
    if p.err.Some? then p
    else
      var c := SeedLLMConfig(db, env, p.store);
      if c.err.Some? then c
      else SeedSummaryTemplates(db, c.store)
  }

  /** Seeding leaves a store with rows in every table exactly as it was, whatever the
      database answers: at worst a count fails, and nothing is created. */
  lemma SeedPopulatedStoreIsNoOp(db: Db, env: string -> string, s: Store)
    requires |s.profiles| > 0 && |s.llmConfigs| > 0 && |s.templates| > 0
    ensures SeedDefaults(db, env, s).store == s
  {
  }

  /** Seeding is idempotent: after a run that returned no error, a second run, against a
      database that may answer differently, inserts nothing. */
  lemma SeedTwiceInsertsNothing(db1: Db, env1: string -> string, db2: Db,
                                env2: string -> string, s: Store)
    ensures var r := SeedDefaults(db1, env1, s);
            r.err.None? ==> SeedDefaults(db2, env2, r.store).store == r.store
  {
    var r := SeedDefaults(db1, env1, s);
    if r.err.None? {
      SeedPopulatedStoreIsNoOp(db2, env2, r.store);
    }
  }

  /** On an empty store where every query succeeds, one run installs exactly the
      defaults. */
  lemma SeedEmptyStoreInstallsDefaults(db: Db, env: string -> string)
    requires forall t :: db.countError(t).None?
    requires forall p :: db.createProfile(p).None?
    requires forall c :: db.createLLMConfig(c).None?
    requires forall t :: db.createTemplate(t).None?
    ensures SeedDefaults(db, env, Store([], [], [])) ==
      Seeded(Store([DefaultTranscriptionProfile()], [LlmSettings.DefaultLLMConfig(env)],
                   SummarySettings.DefaultSummaryTemplates()), None)
  {
  }
}

=== FILE: soap_prompt.dfy ===
/** The default SOAP-note prompt up to, and not including, its transcript placeholder.

    The text is written as a chain of short pieces, broken at the prompt's own line ends and
    between words, so that the verifier can check each piece character by character: no
    piece, and hence no block of pieces, no half and not the preamble, holds a `{`. */
module SoapPrompt {
  const Piece00 := "Anda adalah asisten dokumentasi klinis "
  const Piece01 := "untuk konsultasi psikologi. Analisis "
  const Piece02 := "transkrip berikut dan buat catatan SOAP "
  const Piece03 := "terstruktur mengikuti standar "
  const Piece04 := "dokumentasi medis.\n"
  const Piece05 := "\n"
  const Piece06 := "## FORMAT SOAP\n"
  const Piece07 := "\n"
  const Piece08 := "### S - Subjective (Subjektif)\n"
  const Piece09 := "Dokumentasikan informasi yang "
  const Piece10 := "dilaporkan sendiri oleh pasien:\n"
  const Piece11 := "- Keluhan utama dan masalah yang muncul\n"
  const Piece12 := "- Riwayat penyakit saat ini (HPI)\n"
  const Piece13 := "- Deskripsi pasien tentang gejala, "
  const Piece14 := "perasaan, dan pengalaman\n"
  const Piece15 := "- Riwayat psikososial relevan yang "
  const Piece16 := "disebutkan\n"
  const Piece17 := "- Tujuan terapi pasien\n"
  const Piece18 := "\n"
  const Piece19 := "### O - Objective (Objektif)\n"
  const Piece20 := "Dokumentasikan temuan yang dapat "
  const Piece21 := "diamati dan diukur:\n"
  const Piece22 := "- Observasi pemeriksaan status mental "
  const Piece23 := "(penampilan, perilaku, afek, suasana "
  const Piece24 := "hati, bicara, proses berpikir)\n"
  const Piece25 := "- Observasi perilaku selama sesi\n"
  const Piece26 := "- Observasi objektif klinisi\n"
  const Piece27 := "- Skor penilaian atau hasil tes yang "
  const Piece28 := "disebutkan\n"
  const Piece29 := "\n"
  const Piece30 := "### A - Assessment (Penilaian)\n"
  const Piece31 := "Berikan interpretasi klinis:\n"
  const Piece32 := "- Kesan klinis dan pertimbangan "
  const Piece33 := "diagnostik\n"
  const Piece34 := "- Kemajuan menuju tujuan pengobatan\n"
  const Piece35 := "- Penilaian risiko (ide bunuh "
  const Piece36 := "diri/pembunuhan, menyakiti diri "
  const Piece37 := "sendiri)\n"
  const Piece38 := "- Tingkat gangguan fungsional\n"
  const Piece39 := "- Penilaian aliansi terapeutik\n"
  const Piece40 := "\n"
  const Piece41 := "### P - Plan (Perencanaan)\n"
  const Piece42 := "Dokumentasikan rencana perawatan:\n"
  const Piece43 := "- Intervensi yang digunakan dalam sesi "
  const Piece44 := "ini\n"
  const Piece45 := "- Pekerjaan rumah atau tugas yang "
  const Piece46 := "diberikan\n"
  const Piece47 := "- Modifikasi rencana perawatan\n"
  const Piece48 := "- Rujukan atau konsultasi yang "
  const Piece49 := "dibutuhkan\n"
  const Piece50 := "- Janji temu berikutnya dan tujuan sesi\n"
  const Piece51 := "- Perencanaan keselamatan jika berlaku\n"
  const Piece52 := "\n"
  const Piece53 := "---\n"
  const Piece54 := "\n"
  const Piece55 := "**Panduan Penting:**\n"
  const Piece56 := "- Gunakan bahasa klinis profesional "
  const Piece57 := "(Bahasa Indonesia)\n"
  const Piece58 := "- Ringkas namun menyeluruh\n"
  const Piece59 := "- Pertahankan standar kerahasiaan "
  const Piece60 := "pasien\n"
  const Piece61 := "- Catat masalah keamanan secara "
  const Piece62 := "mencolok\n"
  const Piece63 := "- Sertakan kutipan langsung jika "
  const Piece64 := "relevan secara klinis (ditandai dengan "
  const Piece65 := "tanda kutip)\n"
  const Piece66 := "\n"
  const Piece67 := "TRANSCRIPT:\n"

  const Block0 :=
    Piece00 + Piece01 + Piece02 + Piece03 + Piece04 + Piece05 + Piece06 + Piece07
  const Block1 :=
    Piece08 + Piece09 + Piece10 + Piece11 + Piece12 + Piece13 + Piece14 + Piece15
  const Block2 :=
    Piece16 + Piece17 + Piece18 + Piece19 + Piece20 + Piece21 + Piece22 + Piece23
  const Block3 :=
    Piece24 + Piece25 + Piece26 + Piece27 + Piece28 + Piece29 + Piece30 + Piece31
  const Block4 :=
    Piece32 + Piece33 + Piece34 + Piece35 + Piece36 + Piece37 + Piece38 + Piece39
  const Block5 :=
    Piece40 + Piece41 + Piece42 + Piece43 + Piece44 + Piece45 + Piece46 + Piece47
  const Block6 :=
    Piece48 + Piece49 + Piece50 + Piece51 + Piece52 + Piece53 + Piece54 + Piece55
  const Block7 :=
    Piece56 + Piece57 + Piece58 + Piece59 + Piece60 + Piece61 + Piece62 + Piece63
  const Block8 :=
    Piece64 + Piece65 + Piece66 + Piece67

  const FirstHalf := Block0 + Block1 + Block2 + Block3 + Block4
  const SecondHalf := Block5 + Block6 + Block7 + Block8

  /** The preamble, as it appears in the source. */
  const Preamble := FirstHalf + SecondHalf

  lemma NoBraceInPiece00() ensures '{' !in Piece00 {}
  lemma NoBraceInPiece01() ensures '{' !in Piece01 {}
  lemma NoBraceInPiece02() ensures '{' !in Piece02 {}
  lemma NoBraceInPiece03() ensures '{' !in Piece03 {}
  lemma NoBraceInPiece04() ensures '{' !in Piece04 {}
  lemma NoBraceInPiece05() ensures '{' !in Piece05 {}
  lemma NoBraceInPiece06() ensures '{' !in Piece06 {}
  lemma NoBraceInPiece07() ensures '{' !in Piece07 {}
  lemma NoBraceInPiece08() ensures '{' !in Piece08 {}
  lemma NoBraceInPiece09() ensures '{' !in Piece09 {}
  lemma NoBraceInPiece10() ensures '{' !in Piece10 {}
  lemma NoBraceInPiece11() ensures '{' !in Piece11 {}
  lemma NoBraceInPiece12() ensures '{' !in Piece12 {}
  lemma NoBraceInPiece13() ensures '{' !in Piece13 {}
  lemma NoBraceInPiece14() ensures '{' !in Piece14 {}
  lemma NoBraceInPiece15() ensures '{' !in Piece15 {}
  lemma NoBraceInPiece16() ensures '{' !in Piece16 {}
  lemma NoBraceInPiece17() ensures '{' !in Piece17 {}
  lemma NoBraceInPiece18() ensures '{' !in Piece18 {}
  lemma NoBraceInPiece19() ensures '{' !in Piece19 {}
  lemma NoBraceInPiece20() ensures '{' !in Piece20 {}
  lemma NoBraceInPiece21() ensures '{' !in Piece21 {}
  lemma NoBraceInPiece22() ensures '{' !in Piece22 {}
  lemma NoBraceInPiece23() ensures '{' !in Piece23 {}
  lemma NoBraceInPiece24() ensures '{' !in Piece24 {}
  lemma NoBraceInPiece25() ensures '{' !in Piece25 {}
  lemma NoBraceInPiece26() ensures '{' !in Piece26 {}
  lemma NoBraceInPiece27() ensures '{' !in Piece27 {}
  lemma NoBraceInPiece28() ensures '{' !in Piece28 {}
  lemma NoBraceInPiece29() ensures '{' !in Piece29 {}
  lemma NoBraceInPiece30() ensures '{' !in Piece30 {}
  lemma NoBraceInPiece31() ensures '{' !in Piece31 {}
  lemma NoBraceInPiece32() ensures '{' !in Piece32 {}
  lemma NoBraceInPiece33() ensures '{' !in Piece33 {}
  lemma NoBraceInPiece34() ensures '{' !in Piece34 {}
  lemma NoBraceInPiece35() ensures '{' !in Piece35 {}
  lemma NoBraceInPiece36() ensures '{' !in Piece36 {}
  lemma NoBraceInPiece37() ensures '{' !in Piece37 {}
  lemma NoBraceInPiece38() ensures '{' !in Piece38 {}
  lemma NoBraceInPiece39() ensures '{' !in Piece39 {}
  lemma NoBraceInPiece40() ensures '{' !in Piece40 {}
  lemma NoBraceInPiece41() ensures '{' !in Piece41 {}
  lemma NoBraceInPiece42() ensures '{' !in Piece42 {}
  lemma NoBraceInPiece43() ensures '{' !in Piece43 {}
  lemma NoBraceInPiece44() ensures '{' !in Piece44 {}
  lemma NoBraceInPiece45() ensures '{' !in Piece45 {}
  lemma NoBraceInPiece46() ensures '{' !in Piece46 {}
  lemma NoBraceInPiece47() ensures '{' !in Piece47 {}
  lemma NoBraceInPiece48() ensures '{' !in Piece48 {}
  lemma NoBraceInPiece49() ensures '{' !in Piece49 {}
  lemma NoBraceInPiece50() ensures '{' !in Piece50 {}
  lemma NoBraceInPiece51() ensures '{' !in Piece51 {}
  lemma NoBraceInPiece52() ensures '{' !in Piece52 {}
  lemma NoBraceInPiece53() ensures '{' !in Piece53 {}
  lemma NoBraceInPiece54() ensures '{' !in Piece54 {}
  lemma NoBraceInPiece55() ensures '{' !in Piece55 {}
  lemma NoBraceInPiece56() ensures '{' !in Piece56 {}
  lemma NoBraceInPiece57() ensures '{' !in Piece57 {}
  lemma NoBraceInPiece58() ensures '{' !in Piece58 {}
  lemma NoBraceInPiece59() ensures '{' !in Piece59 {}
  lemma NoBraceInPiece60() ensures '{' !in Piece60 {}
  lemma NoBraceInPiece61() ensures '{' !in Piece61 {}
  lemma NoBraceInPiece62() ensures '{' !in Piece62 {}
  lemma NoBraceInPiece63() ensures '{' !in Piece63 {}
  lemma NoBraceInPiece64() ensures '{' !in Piece64 {}
  lemma NoBraceInPiece65() ensures '{' !in Piece65 {}
  lemma NoBraceInPiece66() ensures '{' !in Piece66 {}
  lemma NoBraceInPiece67() ensures '{' !in Piece67 {}

  lemma NoBraceInBlock0()
    ensures '{' !in Block0
  {
    NoBraceInPiece00(); NoBraceInPiece01(); NoBraceInPiece02(); NoBraceInPiece03(); NoBraceInPiece04(); NoBraceInPiece05(); NoBraceInPiece06(); NoBraceInPiece07();
  }
  lemma NoBraceInBlock1()
    ensures '{' !in Block1
  {
    NoBraceInPiece08(); NoBraceInPiece09(); NoBraceInPiece10(); NoBraceInPiece11(); NoBraceInPiece12(); NoBraceInPiece13(); NoBraceInPiece14(); NoBraceInPiece15();
  }
  lemma NoBraceInBlock2()
    ensures '{' !in Block2
  {
    NoBraceInPiece16(); NoBraceInPiece17(); NoBraceInPiece18(); NoBraceInPiece19(); NoBraceInPiece20(); NoBraceInPiece21(); NoBraceInPiece22(); NoBraceInPiece23();
  }
  lemma NoBraceInBlock3()
    ensures '{' !in Block3
  {
    NoBraceInPiece24(); NoBraceInPiece25(); NoBraceInPiece26(); NoBraceInPiece27(); NoBraceInPiece28(); NoBraceInPiece29(); NoBraceInPiece30(); NoBraceInPiece31();
  }
  lemma NoBraceInBlock4()
    ensures '{' !in Block4
  {
    NoBraceInPiece32(); NoBraceInPiece33(); NoBraceInPiece34(); NoBraceInPiece35(); NoBraceInPiece36(); NoBraceInPiece37(); NoBraceInPiece38(); NoBraceInPiece39();
  }
  lemma NoBraceInBlock5()
    ensures '{' !in Block5
  {
    NoBraceInPiece40(); NoBraceInPiece41(); NoBraceInPiece42(); NoBraceInPiece43(); NoBraceInPiece44(); NoBraceInPiece45(); NoBraceInPiece46(); NoBraceInPiece47();
  }
  lemma NoBraceInBlock6()
    ensures '{' !in Block6
  {
    NoBraceInPiece48(); NoBraceInPiece49(); NoBraceInPiece50(); NoBraceInPiece51(); NoBraceInPiece52(); NoBraceInPiece53(); NoBraceInPiece54(); NoBraceInPiece55();
  }
  lemma NoBraceInBlock7()
    ensures '{' !in Block7
  {
    NoBraceInPiece56(); NoBraceInPiece57(); NoBraceInPiece58(); NoBraceInPiece59(); NoBraceInPiece60(); NoBraceInPiece61(); NoBraceInPiece62(); NoBraceInPiece63();
  }
  lemma NoBraceInBlock8()
    ensures '{' !in Block8
  {
    NoBraceInPiece64(); NoBraceInPiece65(); NoBraceInPiece66(); NoBraceInPiece67();
  }

  lemma NoBraceInFirstHalf()
    ensures '{' !in FirstHalf
  {
    NoBraceInBlock0(); NoBraceInBlock1(); NoBraceInBlock2(); NoBraceInBlock3(); NoBraceInBlock4();
  }

  lemma NoBraceInSecondHalf()
    ensures '{' !in SecondHalf
  {
    NoBraceInBlock5(); NoBraceInBlock6(); NoBraceInBlock7(); NoBraceInBlock8();
  }

  /** No character of the preamble is `{`, so the placeholder cannot start inside it. */
  lemma PreambleHasNoBrace()
    ensures '{' !in Preamble
  {
    NoBraceInFirstHalf(); NoBraceInSecondHalf();
  }
}

=== FILE: summary_settings.dfy ===
/** The default summary templates seeded into an empty database: one clinical SOAP-note
    template whose prompt ends with the transcript placeholder. */
module SummarySettings {
  import opened Wrappers
  import opened Models
  import AutoSummary
  import SoapPrompt

  /** The default templates: exactly one, the SOAP-note template for `gpt-4o-mini`,
      with a description. What its prompt is, is stated apart by
      `DefaultPromptIsSoapTemplate`, so that proofs about seeding need not look into the
      prompt's text. */
  function DefaultSummaryTemplates(): (ts: seq<SummaryTemplate>)
    ensures |ts| == 1
    ensures ts[0].name == "Catatan SOAP Psikologi"
    ensures ts[0].model == "gpt-4o-mini" && ts[0].description.Some?
  {
    [SummaryTemplate(
      id := "",
      name := "Catatan SOAP Psikologi",
      description := Some("Buat catatan SOAP terstruktur dari transkrip konsultasi psikologi"),
      model := "gpt-4o-mini",
      prompt := SoapPrompt.Preamble + AutoSummary.TranscriptPlaceholder)]
  }

  /** The default template's prompt is the SOAP preamble followed by the transcript
      placeholder, which it holds as its last characters. */
  lemma DefaultPromptIsSoapTemplate()
    ensures DefaultSummaryTemplates()[0].prompt ==
              SoapPrompt.Preamble + AutoSummary.TranscriptPlaceholder
  {
  }
}

=== FILE: text.dfy ===
/** String helpers the source takes from its standard libraries:
    Go's `strings.Replace(s, old, new, 1)` and JavaScript's `Number.prototype.toString()`
    and `String.prototype.padStart`. Strings are `seq<char>`; where the source works on Go
    strings each char stands for one byte. */
module Text {
  import opened Wrappers

  // ---------------------------------------------------------------------------
  // Occurrences
  // ---------------------------------------------------------------------------

  /** `pat` occurs in `s` starting at position `i`. */
  predicate OccursAt(s: string, pat: string, i: int) {
    0 <= i && i + |pat| <= |s| && s[i..i + |pat|] == pat
  }

  /** `i` is the leftmost position at which `pat` occurs in `s`. */
  predicate IsFirstOccurrence(s: string, pat: string, i: int) {
    OccursAt(s, pat, i) && forall j :: 0 <= j < i ==> !OccursAt(s, pat, j)
  }

  /** `pat` occurs in `s` at position `i` and nowhere else. */
  ghost predicate OccursOnlyAt(s: string, pat: string, i: int) {
    forall j :: OccursAt(s, pat, j) <==> j == i
  }

  predicate StartsWith(s: string, prefix: string) {
    |prefix| <= |s| && s[..|prefix|] == prefix
  }

  predicate EndsWith(s: string, suffix: string) {
    |suffix| <= |s| && s[|s| - |suffix|..] == suffix
  }

  /** Leftmost occurrence of `pat` at or after `from`, scanning left to right. */
  function IndexFrom(s: string, pat: string, from: nat): (r: Option<nat>)
    requires from <= |s|
    ensures r.Some? ==> from <= r.value && OccursAt(s, pat, r.value)
    ensures r.Some? ==> forall j :: from <= j < r.value ==> !OccursAt(s, pat, j)
    ensures r.None? ==> forall j :: from <= j ==> !OccursAt(s, pat, j)
    decreases |s| - from
  {
    if from + |pat| > |s| then None
    else if s[from..from + |pat|] == pat then Some(from)
    else IndexFrom(s, pat, from + 1)
  }

  /** Go's `strings.Index`: the leftmost occurrence, if any (an empty `pat` is found at 0). */
  function Index(s: string, pat: string): (r: Option<nat>)
    ensures r.Some? ==> IsFirstOccurrence(s, pat, r.value)
    ensures r.None? <==> forall j :: !OccursAt(s, pat, j)
  {
    IndexFrom(s, pat, 0)
  }

  /** Go's `strings.Replace(s, pat, replacement, 1)`: only the leftmost occurrence of `pat` is
      replaced, and a string without `pat` comes back unchanged. */
  function ReplaceFirst(s: string, pat: string, replacement: string): (r: string)
    ensures (forall j :: !OccursAt(s, pat, j)) ==> r == s
    ensures forall i :: IsFirstOccurrence(s, pat, i) ==> r == s[..i] + replacement + s[i + |pat|..]
  {
    match Index(s, pat)
    case None => s
    case Some(i) => s[..i] + replacement + s[i + |pat|..]
  }

  /** When the first character of `pat` does not occur in `pre`, `pat` occurs in `pre + pat`
      only as its trailing characters, so replacing it appends `replacement` to `pre`. */
  lemma ReplaceTrailingOnly(pre: string, pat: string, replacement: string)
    requires |pat| > 0 && pat[0] !in pre
    ensures IsFirstOccurrence(pre + pat, pat, |pre|)
    ensures OccursOnlyAt(pre + pat, pat, |pre|)
    ensures EndsWith(pre + pat, pat)
    ensures ReplaceFirst(pre + pat, pat, replacement) == pre + replacement
  {
    var s := pre + pat;
    assert s[|pre|..|pre| + |pat|] == pat;
    assert s[..|pre|] == pre;
    assert s[|pre| + |pat|..] == [];
    assert s[|s| - |pat|..] == pat;
  }

  // ---------------------------------------------------------------------------
  // Decimal digits and padding
  // ---------------------------------------------------------------------------

  predicate IsDigit(c: char) {
    '0' <= c <= '9'
  }

  predicate AllDigits(s: string) {
    forall k :: 0 <= k < |s| ==> IsDigit(s[k])
  }

  function DigitChar(d: nat): (c: char)
    requires d < 10
    ensures IsDigit(c)
  {
    ('0' as int + d) as char
  }

  function DigitValue(c: char): (d: nat)
    requires IsDigit(c)
    ensures d < 10
  {
    c as int - '0' as int
  }

  /** JavaScript's `n.toString()` for a non-negative integer: base 10, no leading zeros. */
  function NatToDecimal(n: nat): (r: string)
    ensures |r| > 0 && AllDigits(r)
    ensures |r| == 1 <==> n < 10
    ensures |r| <= 2 <==> n < 100
    ensures r[0] == '0' ==> n == 0
    decreases n
  {
    if n < 10 then [DigitChar(n)] else NatToDecimal(n / 10) + [DigitChar(n % 10)]
  }

  /** The number a string of decimal digits denotes (leading zeros allowed). */
  function DecimalValue(s: string): nat
    requires AllDigits(s)
  {
    if |s| == 0 then 0 else DecimalValue(s[..|s| - 1]) * 10 + DigitValue(s[|s| - 1])
  }

  /** Reading back the digits printed for `n` gives `n`. */
  lemma {:induction false} DecimalRoundTrip(n: nat)
    ensures DecimalValue(NatToDecimal(n)) == n
    decreases n
  {
    if n >= 10 {
      var r := NatToDecimal(n);
      assert r[..|r| - 1] == NatToDecimal(n / 10);
      DecimalRoundTrip(n / 10);
    }
  }

  function Repeat(c: char, n: nat): (r: string)
    ensures |r| == n
    ensures forall k :: 0 <= k < n ==> r[k] == c
  {
    seq(n, _ => c)
  }

  /** JavaScript's `s.padStart(width, c)` for a one-character pad. */
  function PadStart(s: string, width: nat, c: char): (r: string)
    ensures |r| == if |s| < width then width else |s|
    ensures r == Repeat(c, |r| - |s|) + s
  {
    if |s| < width then Repeat(c, width - |s|) + s else s
  }

  /** Leading zeros do not change the value of a digit string. */
  lemma {:induction false} LeadingZerosValue(z: nat, s: string)
    requires AllDigits(s)
    ensures AllDigits(Repeat('0', z) + s)
    ensures DecimalValue(Repeat('0', z) + s) == DecimalValue(s)
    decreases |s|, z
  {
    var t := Repeat('0', z) + s;
    if |s| == 0 {
      assert t == Repeat('0', z);
      if z > 0 {
        assert t[..|t| - 1] == Repeat('0', z - 1) + s;
        LeadingZerosValue(z - 1, s);
      }
    } else {
      assert t[..|t| - 1] == Repeat('0', z) + s[..|s| - 1];
      LeadingZerosValue(z, s[..|s| - 1]);
    }
  }
}

=== FILE: wrappers.dfy ===
/** The optional-value and value-or-error types shared by every module of the model.
    - Option<T> stands for a Go pointer (nil or a value) and for TypeScript's `T | null`.
    - Result<T, E> stands for Go's `(value, error)` return pairs.
 */
module Wrappers {

  datatype Option<+T> = None | Some(value: T) {

    /** The wrapped value, or `default` when there is none. */
    function GetOr(default: T): T {
      match this
      case Some(v) => v
      case None => default
    }
  }

  datatype Result<+T, +E> = Success(value: T) | Failure(error: E)
}
